=== FILE: README.md ===
# Account lifecycle of the auth API, in Dafny

This project models the account core of a Django REST authentication API:
- registration of an inactive user, followed by an activation email;
- activation through the emailed uid/token link;
- login and logout;
- reading and changing one's own account;
- password change and the emailed password-reset round trip;
- account deletion;
- the one-to-one user profile.

Below the views it models:
- the user manager (`_create_user`, `create_user`, `create_superuser`);
- the user and profile serializers;
- the model's defaults and the `is_staff`/`is_admin` aliasing;
- the post-save hook that, when a user is created, gives it its role group and a blank profile.

The persistent state is one immutable `Store` value. It holds:
- the user table and the profile table;
- the groups and the user-group relation;
- the session's user;
- the mails sent so far.

Every view is a pure function from a store and a request to a response and the next store. Every view preserves the invariant `Integrity.Valid`:
- keys are fresh;
- emails are unique and fit the 255-character column;
- profiles exist only for stored users and fit their columns;
- every user sits in exactly its role group;
- the session user exists.

The framework services the code calls become fields of `Library.Lib`, a record of total functions passed to every operation that uses one of them:
- Django's email and password validators (as lists of messages);
- `normalize_email`;
- the password hasher and `check_password`;
- `authenticate`;
- the token generator's `make_token`/`check_token`;
- uid encoding and decoding.

The salt the hasher would draw at random and the clock reading a login takes are passed in with the request, like the other outside inputs.

The properties hold for every choice of these functions. Where a property needs something of them, it is stated as a precondition. For example, the round trips need a uid to decode to the key it encodes, and a fresh token to check.

Modules, following the source files:
- `Models`: `auth_api/models.py`
- `Store` and `Integrity`: the database rows and the invariant
- `Signals`: `auth_api/signals.py`
- `Managers`: `auth_api/managers.py`
- `Serializers`: `auth_api/serializers.py`
- `Views`: `auth_api/views.py`
- `Text`: the string helpers, among them Python's `str.strip()`
- `Properties`: lemmas relating several requests, and a dispatcher that runs any sequence of requests

Request bodies are modelled field by field: a field can be left out, sent as JSON null, or sent as a string. The serializers follow Django REST framework's field defaults:
- text fields trim surrounding whitespace before any check, and hand on the trimmed value;
- a value that is blank once trimmed is refused;
- null is refused except on `dob` and `avatar`, which are nullable columns;
- the gender choice is taken as sent.

A password that Django's password validators reject passes the user serializer, which does not run them. The manager then raises `ValueError`, and the registration view answers 500 with nothing stored. `Views.Register` states this.

The store also keeps the part of the user row that Django's token generator and session check depend on:
- `last_login`: the login view moves it to the clock reading the request carries;
- the password: a change ends the session, because the session's auth hash is derived from it.

## Model

| member | source | states |
|---|---|---|
| Text.DigitRun | auth_api/serializers.py:84 | true exactly when the string has the given length and consists of digits only (the `\d{9}` part of the pattern) |
| Text.MatchMobile | auth_api/serializers.py:84 | the matcher accepts a string exactly when it is ten characters long, starts with 6 to 9, and continues with digits |
| Text.Strip | auth_api/serializers.py:14-15 | the trimmed value is no longer than the value sent, and is empty exactly when every character sent is whitespace (Python's `str.isspace` set) |
| Text.StripCuts | auth_api/serializers.py:14-15 | trimming removes exactly a run of whitespace from each end of the value and keeps everything between; what is kept neither starts nor ends with whitespace |
| Text.StripUnique | auth_api/serializers.py:14-15 | only one part of a value is whitespace-free at both ends with only whitespace around it, so the trimmed value is determined by the value sent |
| Text.StripBare | auth_api/serializers.py:14-15 | a value that neither starts nor ends with whitespace is left as it is |
| Text.StripIdempotent | auth_api/serializers.py:14-15 | trimming an already trimmed value changes nothing |
| Text.ContainsIsSubstring | auth_api/managers.py:26-31 | the recursive search finds a fragment exactly when the fragment occurs at some position of the message |
| Models.SetStaff | auth_api/models.py:61-74 | setting `is_staff` sets `is_admin` to the same value, so reading `is_staff` afterwards (the getter, `Models.IsStaff`, reads `is_admin`) gives that value; nothing else of the user changes |
| Models.HasPerm | auth_api/models.py:47-52 | every user holds every permission, on any object |
| Models.HasModulePerms | auth_api/models.py:54-59 | every user may view every application |
| Models.Construct | auth_api/models.py:13-19 | a new user carries the given email, is inactive, has never logged in and has no usable password yet; it is admin (and so staff) exactly when `is_staff=True` is passed, and superuser exactly when `is_superuser=True` is passed |
| Models.BlankProfile | auth_api/models.py:87-93 | the profile created with only its user fits the column widths, but its empty mobile and gender would not pass the profile serializer |
| Store.InsertUser | auth_api/models.py:13-17 | the insert fails exactly when the email is longer than 255 characters or some stored user already has it; otherwise the user is added under a key no one holds and nothing else changes |
| Store.UpdateUser | auth_api/models.py:13-17 | rewriting a user fails exactly when its new email is too long or held by another user; otherwise only that user's row changes |
| Store.DeleteUser | auth_api/models.py:87 | deleting a user removes its row, cascades to its profile and its group-relation rows, and leaves every other row, the groups and the mails as they were |
| Store.InsertProfile | auth_api/models.py:87 | the one-to-one key refuses a second profile for the same user; otherwise exactly that profile is added |
| Store.FindByEmail | auth_api/views.py:278 | the lookup by a stored email returns the user who has that email |
| Signals.GetOrCreateGroup | auth_api/signals.py:35-39 | afterwards the named group exists, every earlier group still exists, no other group is added, and an existing group is reused unchanged (so a second lookup by the same name adds nothing); at most one group is added |
| Signals.PostSave | auth_api/signals.py:27-43 | a save that did not create the row changes nothing; the creating save gives the user a blank profile and exactly one new membership, in AdminProfile if admin and UserProfile otherwise, and leaves users, session and mails alone |
| Integrity.OneGroupPerUser | auth_api/signals.py:33-40 | in a valid store a user is a member of a group exactly when it is that user's role group |
| Integrity.CreationKeepsValid | auth_api/managers.py:20-22 | saving a new user whose email the column accepts, followed by the creation hook, keeps every store invariant |
| Integrity.RewriteKeepsValid | auth_api/models.py:13-17 | rewriting a user row with an accepted email and unchanged admin flag keeps every store invariant |
| Integrity.OwnEmailAdmissible | auth_api/models.py:13-17 | in a valid store a user's own email never conflicts with its own row |
| Managers.FailureMessage | auth_api/managers.py:24-33 | the error text is "Failed to create user: " followed by exactly the sentences whose fragment some message contains, in the order invalid email, too common, too short: its length is the prefix's plus those sentences', and each mentioned sentence sits at its place; it is the bare prefix exactly when nothing is mentioned |
| Managers.Compose | auth_api/managers.py:25-33 | the error text for a choice of reasons is the prefix followed by exactly the chosen sentences in the order email, too common, too short: its length is the prefix's plus theirs, and each chosen sentence sits at its place |
| Managers.FailureMessageAsWritten | auth_api/managers.py:26-31 | the handler as written adds a sentence exactly when the message list holds an element equal to the bare fragment: the prefix followed by exactly those sentences, in the order email, too common, too short, each at its place |
| Managers.AsWrittenDropsFullSentences | auth_api/managers.py:26-31 | as written, when every message is longer than the fragments (as full validator sentences are), the error text is the bare prefix |
| Managers.InvalidEmailReasonLost | auth_api/managers.py:13-33 | for the validator's message "Enter a valid email address.", the handler as written reports no reason, while the substring reading reports "Invalid email address. " |
| Managers.InternalCreateUser | auth_api/managers.py:9-33 | the email is validated before the password and a failure raises `ValueError` built from that validator's messages, storing nothing; with both valid, creation succeeds exactly when the normalised email is admissible, and otherwise the database's integrity error propagates (the handler catches only validation errors); the new user has the normalised email, the hashed password, the requested flags, a blank profile and exactly the membership of its role group (the group created if missing) in a valid store, and nothing else changes |
| Managers.UserDefaults | auth_api/managers.py:35-37 | a flag not passed defaults to false; a flag passed is kept |
| Managers.CreateUser | auth_api/managers.py:35-38 | an ordinary user is admin or superuser only when the caller asks for it, and joins AdminProfile or UserProfile accordingly |
| Managers.CreateSuperuser | auth_api/managers.py:40-50 | a flag passed as anything but `True` raises the matching `ValueError`, with the staff flag checked first; a created superuser is admin, staff and superuser, and in AdminProfile |
| Serializers.ValidateEmail | auth_api/serializers.py:32-45 | an email is accepted exactly when the format validator accepts it and no stored user has it exactly as typed; a format error is reported before a duplicate |
| Serializers.ValidatePasswords | auth_api/serializers.py:21-30 | the object check passes exactly when password and confirmation are equal, absent ones included |
| Serializers.UserErrors | auth_api/serializers.py:14-45 | the serializer reports no error exactly when no field is null, every field is sent unless the update is partial, no sent field is blank once trimmed, the trimmed email is well formed and not stored, and the trimmed password and confirmation are equal; a null field gets "This field may not be null." under its own name, an all-whitespace password gets the blank-field message, and a taken email or differing passwords always give an error |
| Serializers.TrimmedPasswordsMatch | auth_api/serializers.py:14-30 | a password sent with a trailing space matches its confirmation sent without it, and the validated password handed on is the one without the space |
| Serializers.CreateFromSerializer | auth_api/serializers.py:47-57 | on success the new user is neither active, admin nor superuser, has the normalised email and the hash of the password under the given salt, is stored under the next key with a blank profile and a UserProfile membership, and the store stays valid; the second save adds nothing; a failure is exactly the manager's failure |
| Serializers.UpdateFromSerializer | auth_api/serializers.py:59-65 | only the email of that one user changes, to the supplied value or kept; the save fails exactly when the column refuses the resulting email |
| Serializers.ValidateMobile | auth_api/serializers.py:79-87 | a mobile number is accepted exactly when it is a whole-string match of `^[6-9]\d{9}$`; otherwise the format message is reported |
| Serializers.ProfileErrors | auth_api/serializers.py:75-87 | the profile serializer reports no error exactly when the mobile number is sent and valid once trimmed, the gender is sent and one of the choices, and location and bio are not null and fit their columns once trimmed; a trimmed mobile number that does not match always gives an error, and a null location or bio gets "This field may not be null." under its own name |
| Serializers.Validated | auth_api/serializers.py:75-77 | the validated data holds the trimmed text of each sent text field, the gender as sent, `dob` and `avatar` as sent with null kept as null, and nothing for a field left out; for accepted input the mobile number, gender, location and bio in it are well formed |
| Serializers.NewProfile | auth_api/serializers.py:89-95 | the created profile carries each supplied field (null for `dob` or `avatar` when sent as null), column defaults for the rest, and is well formed |
| Serializers.CreateProfile | auth_api/serializers.py:89-95 | the profile is refused exactly when the requesting user already has one; otherwise only that user's profile is added |
| Serializers.UpdateProfile | auth_api/serializers.py:97-108 | each of the six fields takes the supplied value when given (for `dob` and `avatar` an explicit null too, which clears them) and keeps its previous value otherwise |
| Serializers.UpdateProfileIdentityAndIdempotent | auth_api/serializers.py:97-108 | an update that supplies nothing changes nothing, and applying an update twice equals applying it once |
| Serializers.UpdateProfileWellFormed | auth_api/serializers.py:97-108 | a validated update of a well-formed profile is well formed |
| Views.SaveAndMail | auth_api/views.py:60-71 | a password the validators reject gives 500 with the manager's message and no change; otherwise 201 happens exactly when the normalised email is admissible, and a refused one gives 500 with the integrity error and no change; on 201 only the new inactive user is added under the next key, with the hash of the password under the given salt, its blank profile and its UserProfile membership, other rows unchanged, and one activation mail is sent to it, carrying its encoded key and token |
| Views.Register | auth_api/views.py:55-74 | invalid input gives 400 with the serializer's errors and no change; valid input is saved and mailed from the trimmed email and password, whose email passed the format check; any answer but 201 leaves the store unchanged |
| Views.CheckLink | auth_api/views.py:86-94 | a link is missing, undecodable, for an unknown user, refused by the token check, or good; each case is characterised by the uid, the token and the store |
| Views.Activate | auth_api/views.py:81-106 | missing parts give 400, an undecodable uid gives 500, an unknown user or bad token gives 400 "Invalid activation link."; a good link activates an inactive user and changes nothing else, or reports that the account is already active; no active user is ever deactivated |
| Views.Login | auth_api/views.py:145-164 | a session starts exactly when the credentials authenticate a stored active user, and then that user's `last_login` becomes the request's clock reading and nothing else changes; an inactive user gets "Account is not activated." and bad credentials get "Email or Password is incorrect.", with no change |
| Views.Logout | auth_api/views.py:241-254 | the session ends and nothing else changes; an anonymous request gets 403 |
| Views.UserDetail | auth_api/views.py:172-182 | the logged-in user's email and staff flag are returned; without a session, 403 |
| Views.UserDetailUpdate | auth_api/views.py:184-195 | a partial update changes only the logged-in user's email, to the supplied one trimmed or kept; invalid input gives 400 and no change; valid input succeeds exactly when the column accepts the resulting email, and otherwise gives 500 with the integrity error and no change |
| Views.ChangePassword | auth_api/views.py:203-219 | a wrong old password gives 400 and no change; otherwise exactly the logged-in user's stored hash becomes the hash of the new password under the given salt, and the session ends because it is not re-keyed to the new password |
| Views.DeleteAccount | auth_api/views.py:227-237 | the logged-in user, its profile and its memberships go, the session ends, and every other row stays |
| Views.RequestReset | auth_api/views.py:268-289 | an email no user has gives 400 and sends nothing; otherwise exactly one reset mail goes to that user, carrying its encoded key and token, and nothing else changes |
| Views.ConfirmReset | auth_api/views.py:311-336 | missing parts, an undecodable uid, an unknown user, a bad token or an empty new password change nothing; a good link with a new password changes exactly that user's stored hash, to that of the new password under the given salt, and ends the session if that user is the one logged in |
| Views.ProfileGet | auth_api/views.py:349-358 | returns the logged-in user's profile, or 404 when it has none, without changing anything |
| Views.SaveProfile | auth_api/views.py:365-368 | a user who already has a profile gets 500 from the one-to-one key and no change; otherwise 201 with the new profile, and exactly that user's profile is added, built from the validated data |
| Views.ProfileCreate | auth_api/views.py:360-371 | invalid input gives 400 with the serializer's errors and no change; valid input is saved from its validated (trimmed) data for the logged-in user, and gives 201 exactly when that user has no profile yet |
| Views.ProfileUpdate | auth_api/views.py:373-385 | a user without a profile gets 404; invalid input gives 400; valid input gets 200, and only that profile changes, field by field from the validated (trimmed) data, a null `dob` or `avatar` clearing the field |
| Views.ProfileDelete | auth_api/views.py:388-397 | removes exactly the logged-in user's profile, keeping the account, or gives 404 |
| Properties.RegisterStores | auth_api/views.py:60-71 | a registration whose checks pass stores the inactive user under the next key and mails it the link made from that key and that user |
| Properties.SerializerCreates | auth_api/serializers.py:47-57 | for validated input the serializer creates the registered user under the next key, and the store stays valid |
| Properties.MailedLinkActivates | auth_api/views.py:64-69 | the activation link last mailed for an inactive user, sent back unchanged, activates it, and credentials that authenticate it then log it in |
| Properties.ActivateThenLogin | auth_api/views.py:94-100 | a good link activates an inactive user, after which credentials that authenticate that user log it in |
| Properties.RegisterActivateLogin | auth_api/views.py:62-69 | the link in an activation mail, sent back unchanged, activates the new account, and its credentials then log in |
| Properties.ActivationIdempotent | auth_api/views.py:94-100 | activating a second time reports the account as already active and changes nothing |
| Properties.ResetRoundTrip | auth_api/views.py:278-285 | the link in a reset mail, sent back with a non-empty new password, sets exactly that user's password |
| Properties.RawDuplicateReachesDatabase | auth_api/serializers.py:42-43 | an email that differs from a stored one only before normalisation passes validation and ends in a 500 from the unique constraint, with nothing stored or sent |
| Properties.BareSignUpValid | auth_api/serializers.py:14-45 | a sign-up whose email and password have no surrounding whitespace passes the serializer when the email is well formed and not stored, and trimming leaves both as sent |
| Properties.ExampleInputValid | auth_api/serializers.py:32-45 | in the concrete store, "a@EXAMPLE.com" with password "pw" passes every check of the serializer |
| Properties.RawDuplicateExample | auth_api/serializers.py:42 | a concrete store and normaliser in which "a@EXAMPLE.com" passes validation and registration fails with the integrity error |
| Properties.PasswordChangeEndsSession | auth_api/views.py:212-217 | after a password change the account view and a second password change both meet an anonymous request |
| Properties.Handle | auth_api/views.py:55-397 | a request to any modelled endpoint keeps the store valid, and a key that was handed out and is no longer stored stays unstored |
| Properties.RunKeepsRetired | auth_api/views.py:55-397 | a key that was handed out and is no longer stored stays unstored after any sequence of requests |
| Properties.DeletedAccountCannotLogIn | auth_api/views.py:232-234 | after the account is deleted, no later sequence of requests, of any kind, stores it again or leaves a session open for it, whatever the authentication service answers |
| Properties.ResetLinkExpiresOnLogin | auth_api/views.py:153-157 | a reset link mailed before a login is refused after it, when the token generator refuses tokens made before `last_login` moved; the refusal changes nothing |
| Properties.ResetLinkSingleUse | auth_api/views.py:324-332 | a reset link that worked once is refused the second time, with no change, when the fresh hash differs from the old one and the token generator refuses tokens made before the hash changed |

## Left out

- Email delivery, the site domain and the link's URL: a sent mail is recorded as its recipient plus the uid and token its link carries.
- The inner workings of the token generator, the password hasher, `authenticate`, `normalize_email`, Django's validators and uid encoding: these are functions outside this code and are taken as parameters.
- `ActivationConfirm` is a line-for-line copy of `ActivateView`, and both are modelled by `Views.Activate`.
- `GetCSRFToken`, `CheckAuthenticatedView` and `ResetPasswordView` have no account logic, so they are not modelled.
- CSRF protection, URL routing and the signal registration in `apps.py` are left out: they are framework wiring.
- `get_full_name`, `get_short_name`, `get_absolute_url` and `Profile.__str__` are left out. They refer to attributes and routes the model does not have.
- `created_at` and `updated_at` are left out. The model's only clock is the reading a login request carries.
- `dob` and `avatar` are opaque values: the model does not parse dates or store files. They are not trimmed.
- The password hasher's random salt is an argument of each request that sets a password: the model does not draw it.
- A JSON value that is not a string (a number or a list) is not modelled for text fields; the model's fields are absent, null or a string.
- Views without their own `permission_classes` follow the framework's default, which is not part of this code: `UserDetailView`, `ChangePasswordView`, `DeleteAccountView` and `LogoutView`. All four are modelled as requiring a login, like `ProfileView` with `IsAuthenticated`. A request without a session gets 403.
- An uncaught exception becomes a 500 response. Only the causes the model can produce are represented:
  - the manager's `ValueError`;
  - the database integrity error;
  - a uid that does not decode.
- `ConfirmReset` has no catch-all handler, so a uid that does not decode ends in the framework's 500 response. The model gives that 500 the same cause as in `Activate`.
- The session is modelled as one logged-in user. Django's check of the session's auth hash on the next request is folded into the password-changing requests: they end the session at once.
- `create_user` and `create_superuser` with `password=None`, and other keyword arguments, are left out: no view uses them. The flags are booleans, and only `create_superuser` distinguishes non-boolean values.
- Text.MatchMobile: `\d` is taken to be the ASCII digits 0 to 9. Python's `re` on `str` also accepts other Unicode decimal digits.
- Text.DigitRun: accepts only the ASCII digits 0 to 9 for `\d`, where Python's `re` on `str` also accepts other Unicode decimal digits.
- Serializers.ValidateMobile: rejects a number containing non-ASCII decimal digits, which the real pattern accepts, because `\d` is read as ASCII only.
- Serializers.UserErrors: some framework-generated checks of the email field are not modelled:
  - the 255-character length check;
  - the built-in format validator;
  - the unique validator's own "already exists" message.
  The custom `validate_email` and the database constraint are modelled instead. So an email over 255 characters gets 500 from the database here, where the real serializer answers 400.
- Serializers.ProfileErrors: `dob` is not parsed as a date, so a malformed date passes here where the real `DateField` answers 400.
- Views.Login: the message "Account is not activated." is kept as written, even though Django's default backend may refuse inactive users before the view sees them. Whether it does depends on `authenticate`, which is a parameter.
- Managers.FailureMessage: the model's manager and views use the corrected reading (a substring search), not the handler as written. The code as written is `Managers.FailureMessageAsWritten`; see Findings.
- Managers.InternalCreateUser: its `ValueError` text is the corrected `Managers.FailureMessage`. For full-sentence validator messages, the program as written sends the bare "Failed to create user: " instead.
- Views.Register: the 500 body for a password the validators reject carries the corrected message. The program as written sends the bare prefix; see Findings.

## Findings

| source | as written | input that shows it | evidently intended | confidence | as-written member | corrected member |
|---|---|---|---|---|---|---|
| auth_api/managers.py:26-31 | `"Enter a valid email address" in e.messages` asks whether the list of messages has an element equal to the bare fragment. The same holds for the two password fragments. | an invalid email, for which Django's validator gives the messages `["Enter a valid email address."]`; the error text is then "Failed to create user: " with no reason | a sentence is added when some message contains the fragment, giving "Failed to create user: Invalid email address. " | not executed; relies on Django's standard validator messages, which end with a period | Managers.FailureMessageAsWritten, Managers.InvalidEmailReasonLost | Managers.FailureMessage |

=== FILE: integrity.dfy ===
/** The invariant every request handler preserves: what the database schema
    and the account logic together guarantee about the stored state. */
module Integrity {
  import opened Wrappers
  import opened Models
  import opened Store
  import opened Signals

  predicate Valid(s: Store) {
    && FreshIds(s)
    && EmailsUnique(s.users)
    && (forall id :: id in s.users ==> |s.users[id].email| <= EmailMaxLength)
    // one profile per user, and only for stored users
    && s.profiles.Keys <= s.users.Keys
    && (forall id :: id in s.profiles ==> ProfileWellFormed(s.profiles[id]))
    // every user is in exactly the group of its role
    && (forall m :: m in s.memberships ==>
          m.user in s.users && m.group in s.groups && m.group == RoleGroup(s.users[m.user]))
    && (forall id :: id in s.users ==> Membership(id, RoleGroup(s.users[id])) in s.memberships)
    && (s.session.Some? ==> s.session.value in s.users)
  }

  /** The state before any request: no rows, no session, nothing sent. */
  function Empty(): (s: Store)
    ensures Valid(s) && s.users == map[] && s.outbox == []
  {
    Store(map[], map[], {}, {}, None, [], 0)
  }

  /** In a valid store each user belongs to one group and one only. */
  lemma OneGroupPerUser(s: Store, id: UserId, g: string)
    requires Valid(s) && id in s.users
    ensures Membership(id, g) in s.memberships <==> g == RoleGroup(s.users[id])
  {
    if Membership(id, g) in s.memberships {
      assert Membership(id, g).group == RoleGroup(s.users[Membership(id, g).user]);
    }
  }

  /** Inserting an admissible user row and running the creation hook on it
      keeps the store valid, and gives the new user exactly its role group
      and a blank profile. */
  lemma CreationKeepsValid(s: Store, u: User)
    requires Valid(s) && EmailAdmissible(s.users, u.email, None)
    ensures InsertUser(s, u).Some?
    ensures var (id, s1) := InsertUser(s, u).value;
      id !in s1.profiles && Valid(PostSave(s1, id, true))
  {
    var (id, s1) := InsertUser(s, u).value;
    var r := PostSave(s1, id, true);
    forall a, b | a in r.users && b in r.users && a != b
      ensures r.users[a].email != r.users[b].email
    {
      if a != id && b != id {
      } else if a == id {
        assert b in s.users;
      } else {
        assert a in s.users;
      }
    }
    forall m | m in r.memberships
      ensures m.user in r.users && m.group in r.groups && m.group == RoleGroup(r.users[m.user])
    {
      if m != Membership(id, RoleGroup(u)) {
        assert m in s.memberships;
        assert s.users[m.user] == r.users[m.user];
      }
    }
    forall k | k in r.users
      ensures Membership(k, RoleGroup(r.users[k])) in r.memberships
    {
      if k != id {
        assert Membership(k, RoleGroup(s.users[k])) in s.memberships;
      }
    }
  }

  /** Rewriting one user row keeps the store valid when the column accepts
      the new email and the user keeps its role. */
  lemma RewriteKeepsValid(s: Store, id: UserId, u: User)
    requires Valid(s) && id in s.users
    requires EmailAdmissible(s.users, u.email, Some(id))
    requires u.isAdmin == s.users[id].isAdmin
    ensures Valid(s.(users := s.users[id := u]))
  {
    var r := s.(users := s.users[id := u]);
    forall m | m in r.memberships
      ensures m.user in r.users && m.group in r.groups && m.group == RoleGroup(r.users[m.user])
    {
      assert m.group == RoleGroup(s.users[m.user]);
    }
    forall k | k in r.users
      ensures Membership(k, RoleGroup(r.users[k])) in r.memberships
    {
      assert Membership(k, RoleGroup(s.users[k])) in s.memberships;
    }
  }

  /** In a valid store a user's own email is admissible for its own row. */
  lemma OwnEmailAdmissible(s: Store, id: UserId)
    requires Valid(s) && id in s.users
    ensures EmailAdmissible(s.users, s.users[id].email, Some(id))
  {
  }
}

=== FILE: library.dfy ===
/** The framework and library services the account logic calls but does not
    define. Each is a parameter of the model, free to be any function. */
module Library {
  import opened Wrappers
  import opened Models

  datatype Lib = Lib(
    /** Django's email validator: the messages it raises, empty when valid. */
    emailMessages: string -> seq<string>,
    /** The configured password validators: their messages, empty when valid. */
    passwordMessages: string -> seq<string>,
    /** `BaseUserManager.normalize_email`. */
    normalizeEmail: string -> string,
    /** `make_password`, used by `set_password`, with the salt it draws at
        random as its second argument; `None` yields an unusable password. */
    makePassword: (Option<string>, string) -> string,
    /** `user.check_password(raw)`: whether the raw password (second
        argument, possibly absent) matches the stored encoded one (first). */
    checkPassword: (string, Option<string>) -> bool,
    /** `authenticate(email=..., password=...)` over the stored users. */
    authenticate: (map<UserId, User>, Option<string>, Option<string>) -> Option<UserId>,
    /** `default_token_generator.make_token`, for a user in its current state. */
    makeToken: (UserId, User) -> string,
    /** `default_token_generator.check_token`, against the user's current state
        (the generator hashes the password, `last_login` and the email, so a
        token made before one of them changes may stop checking). The same
        generator serves activation and reset links. */
    checkToken: (UserId, User, string) -> bool,
    /** `urlsafe_base64_encode(force_bytes(pk))`. */
    encodeUid: UserId -> string,
    /** Base64 decoding and integer parsing of a uid; `None` when either raises. */
    decodeUid: string -> Option<UserId>)
}

=== FILE: managers.dfy ===
/** The user manager: validation, normalisation and saving of a new user,
    with the flag defaults of ordinary users and superusers. */
module Managers {
  import opened Wrappers
  import opened Text
  import opened Models
  import opened Library
  import opened Store
  import opened Signals
  import opened Integrity

  /** The two exceptions creation can raise: the manager's own `ValueError`,
      and the database's integrity error when the email column refuses the row. */
  datatype CreateError = ValueError(msg: string) | IntegrityError

  datatype CreateResult = Created(id: UserId, store: Store) | Raised(error: CreateError)

  const FailurePrefix := "Failed to create user: "

  /** The fragments the error handler looks for, and the sentence each one adds. */
  const EmailFragment := "Enter a valid email address"
  const CommonFragment := "This password is too common"
  const ShortFragment := "This password is too short"
  const EmailSentence := "Invalid email address. "
  const CommonSentence := "Password is too common. "
  const ShortSentence := "Password is too short. "

  /** Some validation message contains `fragment`. */
  predicate Mentions(msgs: seq<string>, fragment: string) {
    exists i :: 0 <= i < |msgs| && Contains(msgs[i], fragment)
  }

  /** The length a sentence contributes: its own when `mentioned`, else none. */
  function SentenceLength(mentioned: bool, sentence: string): nat {
    if mentioned then |sentence| else 0
  }

  /** The error text for a choice of reasons: the prefix, then the sentence of
      each chosen reason in the fixed order email, too common, too short. */
  function Compose(email: bool, common: bool, short: bool): (r: string)
    ensures |r| == |FailurePrefix| + SentenceLength(email, EmailSentence)
                   + SentenceLength(common, CommonSentence) + SentenceLength(short, ShortSentence)
    ensures r[..|FailurePrefix|] == FailurePrefix
    ensures r == FailurePrefix <==> !email && !common && !short
    ensures email ==> r[|FailurePrefix|..|FailurePrefix| + |EmailSentence|] == EmailSentence
    ensures common ==>
      var at := |FailurePrefix| + SentenceLength(email, EmailSentence);
      r[at..at + |CommonSentence|] == CommonSentence
    ensures short ==> r[|r| - |ShortSentence|..] == ShortSentence
  {
    var e := if email then EmailSentence else "";
    var c := if common then CommonSentence else "";
    var sh := if short then ShortSentence else "";
    var r := FailurePrefix + e + c + sh;
    assert r[|FailurePrefix| + |e|..|FailurePrefix| + |e| + |c|] == c;
    r
  }

  /** The text of the `ValueError` for validation messages `msgs`: the prefix,
      then one sentence per fragment some message contains, in the fixed order
      email, too common, too short, and nothing else. */
  function FailureMessage(msgs: seq<string>): (r: string)
    ensures |r| == |FailurePrefix| + SentenceLength(Mentions(msgs, EmailFragment), EmailSentence)
                   + SentenceLength(Mentions(msgs, CommonFragment), CommonSentence)
                   + SentenceLength(Mentions(msgs, ShortFragment), ShortSentence)
    ensures r[..|FailurePrefix|] == FailurePrefix
    ensures r == FailurePrefix <==>
      !Mentions(msgs, EmailFragment) && !Mentions(msgs, CommonFragment) && !Mentions(msgs, ShortFragment)
    ensures Mentions(msgs, EmailFragment) ==>
      r[|FailurePrefix|..|FailurePrefix| + |EmailSentence|] == EmailSentence
    ensures Mentions(msgs, CommonFragment) ==>
      var at := |FailurePrefix| + SentenceLength(Mentions(msgs, EmailFragment), EmailSentence);
      r[at..at + |CommonSentence|] == CommonSentence
    ensures Mentions(msgs, ShortFragment) ==> r[|r| - |ShortSentence|..] == ShortSentence
  {
    Compose(Mentions(msgs, EmailFragment), Mentions(msgs, CommonFragment), Mentions(msgs, ShortFragment))
  }

  /** The handler as written: `fragment in e.messages` tests whether the list
      holds an element EQUAL to the fragment, not whether a message contains it.
      Otherwise the text is assembled in the same way. */
  function FailureMessageAsWritten(msgs: seq<string>): (r: string)
    ensures |r| == |FailurePrefix| + SentenceLength(EmailFragment in msgs, EmailSentence)
                   + SentenceLength(CommonFragment in msgs, CommonSentence)
                   + SentenceLength(ShortFragment in msgs, ShortSentence)
    ensures r[..|FailurePrefix|] == FailurePrefix
    ensures r == FailurePrefix <==>
      EmailFragment !in msgs && CommonFragment !in msgs && ShortFragment !in msgs
    ensures EmailFragment in msgs ==>
      r[|FailurePrefix|..|FailurePrefix| + |EmailSentence|] == EmailSentence
    ensures CommonFragment in msgs ==>
      var at := |FailurePrefix| + SentenceLength(EmailFragment in msgs, EmailSentence);
      r[at..at + |CommonSentence|] == CommonSentence
    ensures ShortFragment in msgs ==> r[|r| - |ShortSentence|..] == ShortSentence
  {
    Compose(EmailFragment in msgs, CommonFragment in msgs, ShortFragment in msgs)
  }

  /** As written, messages that are full sentences (as the validators' are:
      they end in a period and may go on) never match, so every failure reads
      "Failed to create user: " with nothing after it. */
  lemma AsWrittenDropsFullSentences(msgs: seq<string>)
    requires forall i :: 0 <= i < |msgs| ==> |msgs[i]| > |CommonFragment|
    ensures FailureMessageAsWritten(msgs) == FailurePrefix
  {
    assert |EmailFragment| <= |CommonFragment| && |ShortFragment| <= |CommonFragment|;
  }

  /** The email validator's message, a full sentence. */
  const InvalidEmailMessage := EmailFragment + "."

  /** The concrete case: an invalid email. The validator's message is the
      fragment followed by a period, so the handler as written reports no
      reason, while the substring reading reports the invalid email. */
  lemma InvalidEmailReasonLost()
    ensures FailureMessageAsWritten([InvalidEmailMessage]) == FailurePrefix
    ensures FailureMessage([InvalidEmailMessage]) == FailurePrefix + EmailSentence
  {
    var m := InvalidEmailMessage;
    assert m != EmailFragment && m != CommonFragment && m != ShortFragment by {
      assert |m| == |EmailFragment| + 1;
      assert m[0] == 'E' != CommonFragment[0] == ShortFragment[0];
    }
    assert m[..|EmailFragment|] == EmailFragment;
    assert OccursAt(m, EmailFragment, 0);
    ContainsIsSubstring(m, EmailFragment);
    assert [m][0] == m && Contains(m, EmailFragment);
    assert Mentions([m], EmailFragment);
    AbsentLeadNotMentioned(m, CommonFragment);
    AbsentLeadNotMentioned(m, ShortFragment);
    assert FailureMessageAsWritten([m]) == Compose(false, false, false) == FailurePrefix + "" + "" + "";
    assert FailureMessage([m]) == Compose(true, false, false) == FailurePrefix + EmailSentence + "" + "";
  }

  /** A fragment whose first character does not occur in the only message is
      not mentioned. */
  lemma AbsentLeadNotMentioned(m: string, fragment: string)
    requires fragment != [] && forall i :: 0 <= i < |m| ==> m[i] != fragment[0]
    ensures !Mentions([m], fragment)
  {
    ContainsIsSubstring(m, fragment);
    assert [m][0] == m;
    forall i: nat
      ensures !OccursAt(m, fragment, i)
    {
      if i + |fragment| <= |m| {
        assert m[i..i + |fragment|][0] == m[i];
      }
    }
  }

  /** `_create_user`: validate the email, then the password, and only then
      build the user from the normalised email, set its password and save it
      (which runs the creation hook). A validation failure raises `ValueError`
      and stores nothing. */
  function InternalCreateUser(lib: Lib, s: Store, email: string, password: string, salt: string, extra: ExtraFields): (r: CreateResult)
    requires Valid(s)
    ensures lib.emailMessages(email) != [] ==>
      r == Raised(ValueError(FailureMessage(lib.emailMessages(email))))
    ensures lib.emailMessages(email) == [] && lib.passwordMessages(password) != [] ==>
      r == Raised(ValueError(FailureMessage(lib.passwordMessages(password))))
    ensures lib.emailMessages(email) == [] && lib.passwordMessages(password) == [] ==>
      (r.Created? <==> EmailAdmissible(s.users, lib.normalizeEmail(email), None))
    ensures r.Raised? && r.error.IntegrityError? ==> !EmailAdmissible(s.users, lib.normalizeEmail(email), None)
    ensures lib.emailMessages(email) == [] && lib.passwordMessages(password) == []
            && !EmailAdmissible(s.users, lib.normalizeEmail(email), None) ==>
      r == Raised(IntegrityError)
    ensures r.Created? ==>
      && r.id == s.nextId && r.id !in s.users
      && r.store.users.Keys == s.users.Keys + {r.id}
      && (forall k :: k in s.users ==> r.store.users[k] == s.users[k])
      && r.store.users[r.id].email == lib.normalizeEmail(email)
      && r.store.users[r.id].pwd == lib.makePassword(Some(password), salt)
      && !r.store.users[r.id].isActive
      && (r.store.users[r.id].isAdmin <==> extra.isStaff == Some(true))
      && (r.store.users[r.id].isSuperuser <==> extra.isSuperuser == Some(true))
      && r.store.profiles == s.profiles[r.id := BlankProfile()]
      && r.store.groups == s.groups + {RoleGroup(r.store.users[r.id])}
      && r.store.memberships == s.memberships + {Membership(r.id, RoleGroup(r.store.users[r.id]))}
      && r.store.outbox == s.outbox && r.store.session == s.session
      && r.store.nextId == s.nextId + 1
      && Valid(r.store)
  {
    var emailMsgs := lib.emailMessages(email);
    if emailMsgs != [] then Raised(ValueError(FailureMessage(emailMsgs)))
    else
      var pwdMsgs := lib.passwordMessages(password);
      if pwdMsgs != [] then Raised(ValueError(FailureMessage(pwdMsgs)))
      else
        var u := Construct(lib.normalizeEmail(email), extra).(pwd := lib.makePassword(Some(password), salt));
        match InsertUser(s, u)
        case None => Raised(IntegrityError)
        case Some((id, s1)) =>
          CreationKeepsValid(s, u);
          Created(id, PostSave(s1, id, true))
  }

  /** `extra_fields.setdefault(...)` for an ordinary user: a flag the caller
      did not pass becomes false; a flag it passed is kept. */
  function UserDefaults(extra: ExtraFields): (r: ExtraFields)
    ensures r.isStaff == (if extra.isStaff.None? then Some(false) else extra.isStaff)
    ensures r.isSuperuser == (if extra.isSuperuser.None? then Some(false) else extra.isSuperuser)
  {
    ExtraFields(Some(extra.isStaff.ValueOr(false)), Some(extra.isSuperuser.ValueOr(false)))
  }

  /** `create_user`. Unless the caller asks for them, the user is neither
      admin (staff) nor superuser. */
  function CreateUser(lib: Lib, s: Store, email: string, password: string, salt: string, extra: ExtraFields): (r: CreateResult)
    requires Valid(s)
    ensures r == InternalCreateUser(lib, s, email, password, salt, UserDefaults(extra))
    ensures r.Created? ==>
      && (r.store.users[r.id].isAdmin <==> extra.isStaff == Some(true))
      && (r.store.users[r.id].isSuperuser <==> extra.isSuperuser == Some(true))
      && Membership(r.id, if extra.isStaff == Some(true) then AdminGroup else UserGroup) in r.store.memberships
  {
    InternalCreateUser(lib, s, email, password, salt, UserDefaults(extra))
  }

  /** The value a caller passes for a flag of `create_superuser`. Only the
      boolean `True` itself passes an `is not True` test; false and every
      non-boolean value fail it. */
  datatype FlagArg = FlagTrue | FlagFalse | FlagOther

  /** `create_superuser`: both flags default to `True`, and a flag passed as
      anything other than `True` raises `ValueError`, the staff flag checked first. */
  function CreateSuperuser(lib: Lib, s: Store, email: string, password: string, salt: string,
                           isStaff: Option<FlagArg>, isSuperuser: Option<FlagArg>): (r: CreateResult)
    requires Valid(s)
    ensures isStaff.ValueOr(FlagTrue) == FlagTrue && isSuperuser.ValueOr(FlagTrue) == FlagTrue ==>
      r == InternalCreateUser(lib, s, email, password, salt, ExtraFields(Some(true), Some(true)))
    ensures isStaff.Some? && isStaff.value != FlagTrue ==>
      r == Raised(ValueError("Superuser must have is_staff=True."))
    ensures isStaff.ValueOr(FlagTrue) == FlagTrue && isSuperuser.Some? && isSuperuser.value != FlagTrue ==>
      r == Raised(ValueError("Superuser must have is_superuser=True."))
    ensures r.Created? ==>
      && isStaff.ValueOr(FlagTrue) == FlagTrue && isSuperuser.ValueOr(FlagTrue) == FlagTrue
      && r.store.users[r.id].isAdmin && IsStaff(r.store.users[r.id])
      && r.store.users[r.id].isSuperuser
      && Membership(r.id, AdminGroup) in r.store.memberships
  {
    if isStaff.ValueOr(FlagTrue) != FlagTrue then Raised(ValueError("Superuser must have is_staff=True."))
    else if isSuperuser.ValueOr(FlagTrue) != FlagTrue then Raised(ValueError("Superuser must have is_superuser=True."))
    else InternalCreateUser(lib, s, email, password, salt, ExtraFields(Some(true), Some(true)))
  }
}

=== FILE: models.dfy ===
/** The two persisted entities, User and Profile, with the behaviour the User
    model defines on itself and the column constraints both tables declare. */
module Models {
  import opened Wrappers
  import opened Text

  /** Primary key of the user table (an auto-incremented integer). */
  type UserId = nat

  /** Column widths and choices declared on the two tables. */
  const EmailMaxLength: nat := 255
  const MobileMaxLength: nat := 20
  const LocationMaxLength: nat := 30
  const BioMaxLength: nat := 500
  const GenderChoices: set<string> := {"M", "F"}

  /** A stored account. `pwd` is the encoded password the hasher produced;
      the raw password is never kept. `isSuperuser` comes from the permissions
      mixin; `is_staff` is not a column (see `IsStaff`). */
  datatype User = User(
    email: string,
    pwd: string,
    isActive: bool,
    isAdmin: bool,
    isSuperuser: bool,
    /** `last_login`, as a clock reading; `None` until the first login. */
    lastLogin: Option<nat>)

  /** The `is_staff` property: every admin is staff and nobody else is. */
  function IsStaff(u: User): bool {
    u.isAdmin
  }

  /** The `is_staff` setter writes straight through to `is_admin`. */
  function SetStaff(u: User, v: bool): (r: User)
    ensures IsStaff(r) == v && r.isAdmin == v
    ensures r.email == u.email && r.pwd == u.pwd
    ensures r.isActive == u.isActive && r.isSuperuser == u.isSuperuser && r.lastLogin == u.lastLogin
  {
    u.(isAdmin := v)
  }

  /** Every user holds every permission, on every object. */
  function HasPerm(u: User, perm: string, obj: Option<string>): (r: bool)
    ensures r
  {
    true
  }

  /** Every user may view every application. */
  function HasModulePerms(u: User, appLabel: string): (r: bool)
    ensures r
  {
    true
  }

  /** The keyword arguments a manager hands to the model constructor;
      `None` means the keyword was not passed at all. */
  datatype ExtraFields = ExtraFields(isStaff: Option<bool>, isSuperuser: Option<bool>)

  /** `User(email=email, **extra_fields)`: every column starts at its default
      (inactive, not admin, not superuser, empty password) and each supplied
      keyword is then assigned through its attribute, so `is_staff` goes
      through the property setter and lands in `is_admin`. */
  function Construct(email: string, extra: ExtraFields): (u: User)
    ensures u.email == email && u.pwd == "" && !u.isActive && u.lastLogin.None?
    ensures u.isAdmin <==> extra.isStaff == Some(true)
    ensures IsStaff(u) <==> extra.isStaff == Some(true)
    ensures u.isSuperuser <==> extra.isSuperuser == Some(true)
  {
    var initial := User(email, "", false, false, false, None);
    var staffed := if extra.isStaff.Some? then SetStaff(initial, extra.isStaff.value) else initial;
    if extra.isSuperuser.Some? then staffed.(isSuperuser := extra.isSuperuser.value) else staffed
  }

  /** A profile row. `dob` and `avatar` are nullable and kept opaque. */
  datatype Profile = Profile(
    mobile: string,
    location: string,
    dob: Option<string>,
    bio: string,
    gender: string,
    avatar: Option<string>)

  /** What the stored profiles satisfy: the declared column widths, a gender
      that is blank or one of the choices, and a mobile number that is blank
      or in the validated format. Blank values are allowed because the
      profile created for every new user carries them. */
  predicate ProfileWellFormed(p: Profile) {
    && |p.mobile| <= MobileMaxLength
    && |p.location| <= LocationMaxLength
    && |p.bio| <= BioMaxLength
    && (p.gender == "" || p.gender in GenderChoices)
    && (p.mobile == "" || ValidMobile(p.mobile))
  }

  /** `Profile.objects.create(user=...)` with no other field: every column at
      its default. Its mobile and gender are not valid inputs of the profile
      serializer, so not every stored profile holds a valid mobile number. */
  function BlankProfile(): (p: Profile)
    ensures ProfileWellFormed(p)
    ensures !ValidMobile(p.mobile) && p.gender !in GenderChoices
  {
    Profile("", "", None, "", "", None)
  }
}

=== FILE: properties.dfy ===
/** Properties that relate several requests: the life of an account from
    registration to login, idempotent activation, the reset round trip, and
    what the raw-email uniqueness check lets through. */
module Properties {
  import opened Wrappers
  import opened Text
  import opened Models
  import opened Library
  import opened Store
  import opened Signals
  import opened Integrity
  import opened Managers
  import opened Serializers
  import opened Views

  /** The user a successful registration stores, before activation, from
      the validated (trimmed) email and password and the hasher's salt. */
  function Registered(lib: Lib, email: string, password: string, salt: string): User {
    User(lib.normalizeEmail(email), lib.makePassword(Some(password), salt), false, false, false, None)
  }

  /** A registration body that sends the same password twice. */
  function SignUp(email: string, password: string): UserInput {
    UserInput(Sent(email), Sent(password), Sent(password))
  }

  /** A registration whose checks all pass stores the inactive user, built
      from the trimmed email and password, under the next key and mails it
      the link made from that key and that user. */
  lemma RegisterStores(lib: Lib, s: Store, email: string, password: string, salt: string)
    requires Valid(s)
    requires UserInputValid(lib, s.users, SignUp(email, password), false)
    requires lib.passwordMessages(Strip(password)) == []
    requires EmailAdmissible(s.users, lib.normalizeEmail(Strip(email)), None)
    ensures var (r1, s1) := Register(lib, s, SignUp(email, password), salt);
      var u := Registered(lib, Strip(email), Strip(password), salt);
      && r1.status == 201 && Valid(s1)
      && s1.users == s.users[s.nextId := u]
      && s1.outbox[|s1.outbox| - 1] == Mail(ActivationMail, u.email, lib.encodeUid(s.nextId), lib.makeToken(s.nextId, u))
  {
    var e, p := Strip(email), Strip(password);
    var u := Registered(lib, e, p, salt);
    var c := SerializerCreates(lib, s, e, p, salt);
    var s1 := c.store.(outbox := c.store.outbox + [Mail(ActivationMail, u.email, lib.encodeUid(s.nextId), lib.makeToken(s.nextId, u))]);
    assert SaveAndMail(lib, s, e, p, salt) == (Response(201, Detail(RegisteredText)), s1);
  }

  /** The serializer's create step for checked input: the registered user,
      under the next key. */
  lemma SerializerCreates(lib: Lib, s: Store, email: string, password: string, salt: string) returns (c: CreateResult)
    requires Valid(s)
    requires lib.emailMessages(email) == [] && lib.passwordMessages(password) == []
    requires EmailAdmissible(s.users, lib.normalizeEmail(email), None)
    ensures c == CreateFromSerializer(lib, s, email, password, salt)
    ensures c.Created? && c.id == s.nextId && Valid(c.store)
    ensures c.store.users == s.users[s.nextId := Registered(lib, email, password, salt)]
    ensures c.store.session == s.session && c.store.outbox == s.outbox
  {
    c := CreateFromSerializer(lib, s, email, password, salt);
    assert c.store.users[c.id] == Registered(lib, email, password, salt);
  }

  /** Writing a key twice keeps only the second value. */
  lemma Overwrite<K, V>(m: map<K, V>, k: K, a: V, b: V)
    ensures m[k := a][k := b] == m[k := b]
  {
    assert m[k := a][k := b].Keys == m[k := b].Keys;
  }

  /** A link that checks for an inactive user activates it, and then the
      credentials that authenticate that user log it in. */
  lemma ActivateThenLogin(lib: Lib, s: Store, uid: string, token: string, email: string, password: string, now: nat)
    requires Valid(s)
    requires CheckLink(lib, s, Some(uid), Some(token)).LinkOk?
    requires var id := CheckLink(lib, s, Some(uid), Some(token)).id;
      && !s.users[id].isActive
      && lib.authenticate(s.users[id := s.users[id].(isActive := true)], Some(email), Some(password)) == Some(id)
    ensures var id := CheckLink(lib, s, Some(uid), Some(token)).id;
      var (r2, s2) := Activate(lib, s, Some(uid), Some(token));
      && r2 == Response(200, Detail(ActivatedText))
      && s2.users == s.users[id := s.users[id].(isActive := true)]
      && var (r3, s3) := Login(lib, s2, Some(email), Some(password), now);
         r3.status == 200 && s3.session == Some(id)
  {
  }

  /** The activation link mailed for an inactive user, sent back unchanged,
      activates it, provided the uid decodes to the key it encodes and the
      token checks against the user it was made for; then credentials that
      authenticate the activated user log it in. */
  lemma MailedLinkActivates(lib: Lib, s1: Store, id: UserId, email: string, password: string, now: nat)
    requires Valid(s1) && id in s1.users && !s1.users[id].isActive && s1.outbox != []
    requires s1.outbox[|s1.outbox| - 1] == Mail(ActivationMail, s1.users[id].email, lib.encodeUid(id), lib.makeToken(id, s1.users[id]))
    requires lib.decodeUid(lib.encodeUid(id)) == Some(id)
    requires lib.encodeUid(id) != "" && lib.makeToken(id, s1.users[id]) != ""
    requires lib.checkToken(id, s1.users[id], lib.makeToken(id, s1.users[id]))
    requires lib.authenticate(s1.users[id := s1.users[id].(isActive := true)], Some(email), Some(password)) == Some(id)
    ensures var mail := s1.outbox[|s1.outbox| - 1];
      var s2 := Activate(lib, s1, Some(mail.uid), Some(mail.token)).1;
      && s2.users[id].isActive
      && Login(lib, s2, Some(email), Some(password), now).1.session == Some(id)
  {
    var mail := s1.outbox[|s1.outbox| - 1];
    assert CheckLink(lib, s1, Some(mail.uid), Some(mail.token)) == LinkOk(id);
    ActivateThenLogin(lib, s1, mail.uid, mail.token, email, password, now);
  }

  /** Registration, then the mailed activation link, then login: the link
      activates the new account and the credentials then log it in. */
  lemma RegisterActivateLogin(lib: Lib, s: Store, email: string, password: string, salt: string, now: nat)
    requires Valid(s)
    requires UserInputValid(lib, s.users, SignUp(email, password), false)
    requires lib.passwordMessages(Strip(password)) == []
    requires EmailAdmissible(s.users, lib.normalizeEmail(Strip(email)), None)
    requires var u := Registered(lib, Strip(email), Strip(password), salt);
      && lib.decodeUid(lib.encodeUid(s.nextId)) == Some(s.nextId)
      && lib.encodeUid(s.nextId) != "" && lib.makeToken(s.nextId, u) != ""
      && lib.checkToken(s.nextId, u, lib.makeToken(s.nextId, u))
      && lib.authenticate(s.users[s.nextId := u.(isActive := true)], Some(email), Some(password)) == Some(s.nextId)
    ensures var s1 := Register(lib, s, SignUp(email, password), salt).1;
      var mail := s1.outbox[|s1.outbox| - 1];
      var s2 := Activate(lib, s1, Some(mail.uid), Some(mail.token)).1;
      && !s1.users[s.nextId].isActive
      && s2.users[s.nextId].isActive
      && Login(lib, s2, Some(email), Some(password), now).1.session == Some(s.nextId)
  {
    var u := Registered(lib, Strip(email), Strip(password), salt);
    RegisterStores(lib, s, email, password, salt);
    var s1 := Register(lib, s, SignUp(email, password), salt).1;
    assert s1.users[s.nextId] == u;
    Overwrite(s.users, s.nextId, u, u.(isActive := true));
    MailedLinkActivates(lib, s1, s.nextId, email, password, now);
  }

  /** Activating twice with a link that still checks: the second request
      reports the account as already active and changes nothing. */
  lemma ActivationIdempotent(lib: Lib, s: Store, uid: Option<string>, token: Option<string>)
    requires Valid(s)
    requires CheckLink(lib, s, uid, token).LinkOk?
    requires var id := CheckLink(lib, s, uid, token).id;
      lib.checkToken(id, s.users[id].(isActive := true), token.value)
    ensures var (r1, s1) := Activate(lib, s, uid, token);
      && r1.status == 200
      && Activate(lib, s1, uid, token) == (Response(200, Detail(AlreadyActiveText)), s1)
  {
    var id := CheckLink(lib, s, uid, token).id;
    var (r1, s1) := Activate(lib, s, uid, token);
    assert s1.users[id] == s.users[id].(isActive := true) || s1 == s;
    assert CheckLink(lib, s1, uid, token) == LinkOk(id);
  }

  /** The link in a reset mail, sent back with a new password, resets the
      password of the user it was sent to. */
  lemma ResetRoundTrip(lib: Lib, s: Store, email: string, newPassword: string, salt: string)
    requires Valid(s) && EmailTaken(s.users, email) && newPassword != ""
    requires var id := FindByEmail(s.users, email);
      && lib.decodeUid(lib.encodeUid(id)) == Some(id)
      && lib.encodeUid(id) != "" && lib.makeToken(id, s.users[id]) != ""
      && lib.checkToken(id, s.users[id], lib.makeToken(id, s.users[id]))
    ensures var (r1, s1) := RequestReset(lib, s, Some(email));
      && r1.status == 200
      && var mail := s1.outbox[|s1.outbox| - 1];
         var (r2, s2) := ConfirmReset(lib, s1, Some(mail.uid), Some(mail.token), Some(newPassword), salt);
         && r2 == Response(200, Detail(PasswordResetText))
         && var id := FindByEmail(s.users, email);
            s2.users == s.users[id := s.users[id].(pwd := lib.makePassword(Some(newPassword), salt))]
  {
    var id := FindByEmail(s.users, email);
    var (r1, s1) := RequestReset(lib, s, Some(email));
    var mail := s1.outbox[|s1.outbox| - 1];
    assert mail.uid == lib.encodeUid(id) && mail.token == lib.makeToken(id, s.users[id]);
    assert CheckLink(lib, s1, Some(mail.uid), Some(mail.token)) == LinkOk(id);
  }

  /** The email check compares the email as typed, but the manager stores its
      normalised form. An email that differs from a stored one only before
      normalisation passes validation and is refused by the database's
      unique constraint instead: a server error, with nothing stored or sent. */
  lemma RawDuplicateReachesDatabase(lib: Lib, s: Store, email: string, password: string, salt: string)
    requires Valid(s)
    requires UserInputValid(lib, s.users, SignUp(email, password), false)
    requires lib.passwordMessages(Strip(password)) == []
    requires EmailTaken(s.users, lib.normalizeEmail(Strip(email)))
    ensures Register(lib, s, SignUp(email, password), salt)
         == (Response(500, ServerError(IntegrityErrorRaised)), s)
  {
  }

  /** The services of the example below: every email and password passes
      the validators, and normalisation lower-cases the domain of one address. */
  function ExampleLib(): Lib {
    Lib(e => [], p => [], e => if e == "a@EXAMPLE.com" then "a@example.com" else e,
        (p, salt) => "h", (h, p) => false, (us, e, p) => None, (id, u) => "t", (id, u, t) => false,
        id => "u", uid => None)
  }

  /** One active user, "a@example.com", under key 0. */
  function ExampleStore(): Store {
    Store(map[0 := User("a@example.com", "h", true, false, false, None)], map[], {UserGroup},
          {Membership(0, UserGroup)}, None, [], 1)
  }

  /** The example store satisfies the invariant, and the raw email is not
      stored in it. */
  lemma ExampleStoreFacts()
    ensures Valid(ExampleStore())
    ensures !EmailTaken(ExampleStore().users, "a@EXAMPLE.com")
  {
    var raw, stored := "a@EXAMPLE.com", "a@example.com";
    assert raw != stored by {
      assert raw[2] != stored[2];
    }
  }

  /** A sign-up whose email and password have no whitespace to trim passes
      the serializer when the email is well formed and not stored. */
  lemma BareSignUpValid(lib: Lib, users: map<UserId, User>, email: string, password: string)
    requires Bare(email) && Bare(password) && email != [] && password != []
    requires lib.emailMessages(email) == [] && !EmailTaken(users, email)
    ensures UserInputValid(lib, users, SignUp(email, password), false)
    ensures Strip(email) == email && Strip(password) == password
  {
    StripBare(email);
    StripBare(password);
  }

  /** In the example, the raw email and password pass every check of the
      serializer. */
  lemma ExampleInputValid()
    ensures Valid(ExampleStore())
    ensures UserInputValid(ExampleLib(), ExampleStore().users, SignUp("a@EXAMPLE.com", "pw"), false)
    ensures Strip("a@EXAMPLE.com") == "a@EXAMPLE.com" && Strip("pw") == "pw"
  {
    ExampleStoreFacts();
    ExampleTextBare();
    BareSignUpValid(ExampleLib(), ExampleStore().users, "a@EXAMPLE.com", "pw");
  }

  /** The example's email and password carry no surrounding whitespace. */
  lemma ExampleTextBare()
    ensures Bare("a@EXAMPLE.com") && Bare("pw")
  {
  }

  /** A concrete instance of the case above: "a@EXAMPLE.com" is not stored,
      but normalises to the stored "a@example.com". */
  lemma RawDuplicateExample()
    ensures Valid(ExampleStore())
    ensures UserInputValid(ExampleLib(), ExampleStore().users, SignUp("a@EXAMPLE.com", "pw"), false)
    ensures Register(ExampleLib(), ExampleStore(), SignUp("a@EXAMPLE.com", "pw"), "salt")
         == (Response(500, ServerError(IntegrityErrorRaised)), ExampleStore())
  {
    ExampleInputValid();
    RawDuplicateReachesDatabase(ExampleLib(), ExampleStore(), "a@EXAMPLE.com", "pw", "salt");
  }

  /** A password change logs the user out: afterwards the account view and a
      second password change both meet an anonymous request. */
  lemma PasswordChangeEndsSession(lib: Lib, s: Store, oldPassword: Option<string>, newPassword: Option<string>, salt: string)
    requires Valid(s) && s.session.Some?
    requires lib.checkPassword(s.users[s.session.value].pwd, oldPassword)
    ensures var (r1, s1) := ChangePassword(lib, s, oldPassword, newPassword, salt);
      && r1 == Response(200, Detail(PasswordChangedText))
      && UserDetail(s1).0 == NotAuthenticated
      && ChangePassword(lib, s1, oldPassword, newPassword, salt) == (NotAuthenticated, s1)
  {
  }

  /** A reset link mailed before the user logs in stops working after the
      login: the login moves `last_login`, and a token generator that, like
      Django's, refuses a token made for the user as it was before the move
      then refuses the link. The failed confirmation changes nothing. */
  lemma ResetLinkExpiresOnLogin(lib: Lib, s: Store, email: string,
                                loginEmail: Option<string>, loginPassword: Option<string>,
                                now: nat, newPassword: string, salt: string)
    requires Valid(s) && EmailTaken(s.users, email)
    requires var id := FindByEmail(s.users, email);
      && s.users[id].isActive
      && lib.authenticate(s.users, loginEmail, loginPassword) == Some(id)
      && lib.decodeUid(lib.encodeUid(id)) == Some(id)
      && lib.encodeUid(id) != "" && lib.makeToken(id, s.users[id]) != ""
      && !lib.checkToken(id, s.users[id].(lastLogin := Some(now)), lib.makeToken(id, s.users[id]))
    ensures var s1 := RequestReset(lib, s, Some(email)).1;
      var mail := s1.outbox[|s1.outbox| - 1];
      var s2 := Login(lib, s1, loginEmail, loginPassword, now).1;
      && s2.session == Some(FindByEmail(s.users, email))
      && ConfirmReset(lib, s2, Some(mail.uid), Some(mail.token), Some(newPassword), salt)
         == (Response(400, Detail(InvalidResetText)), s2)
  {
    var id := FindByEmail(s.users, email);
    var s1 := RequestReset(lib, s, Some(email)).1;
    var mail := s1.outbox[|s1.outbox| - 1];
    assert mail.uid == lib.encodeUid(id) && mail.token == lib.makeToken(id, s.users[id]);
    assert s1.users == s.users;
    var s2 := Login(lib, s1, loginEmail, loginPassword, now).1;
    assert s2.users[id] == s.users[id].(lastLogin := Some(now));
    assert CheckLink(lib, s2, Some(mail.uid), Some(mail.token)) == BadToken;
  }

  /** A reset link works once. The reset stores a hash made with a fresh
      salt, so the stored hash changes even when the new password equals the
      old one; a token generator that, like Django's, refuses a token made
      for the user as it was before its password hash changed then refuses
      the same link, and the second confirmation changes nothing. */
  lemma ResetLinkSingleUse(lib: Lib, s: Store, uid: string, token: string, newPassword: string, salt: string,
                           againPassword: Option<string>, againSalt: string)
    requires Valid(s) && newPassword != ""
    requires CheckLink(lib, s, Some(uid), Some(token)).LinkOk?
    requires var id := CheckLink(lib, s, Some(uid), Some(token)).id;
      && lib.makePassword(Some(newPassword), salt) != s.users[id].pwd
      && forall v: User :: v.pwd != s.users[id].pwd ==> !lib.checkToken(id, v, token)
    ensures var (r1, s1) := ConfirmReset(lib, s, Some(uid), Some(token), Some(newPassword), salt);
      && r1 == Response(200, Detail(PasswordResetText))
      && ConfirmReset(lib, s1, Some(uid), Some(token), againPassword, againSalt)
         == (Response(400, Detail(InvalidResetText)), s1)
  {
    var id := CheckLink(lib, s, Some(uid), Some(token)).id;
    var s1 := ConfirmReset(lib, s, Some(uid), Some(token), Some(newPassword), salt).1;
    assert s1.users[id].pwd == lib.makePassword(Some(newPassword), salt);
    assert CheckLink(lib, s1, Some(uid), Some(token)) == BadToken;
  }

  // ------------------------------------------------------ request sequences

  /** One request to any of the modelled endpoints, with the clock reading
      and hasher salt the handler draws. */
  datatype Request =
    | RegisterRequest(input: UserInput, salt: string)
    | ActivateRequest(uid: Option<string>, token: Option<string>)
    | LoginRequest(email: Option<string>, password: Option<string>, now: nat)
    | LogoutRequest
    | UserDetailRequest
    | UserDetailUpdateRequest(input: UserInput)
    | ChangePasswordRequest(oldPassword: Option<string>, newPassword: Option<string>, salt: string)
    | DeleteAccountRequest
    | RequestResetRequest(email: Option<string>)
    | ConfirmResetRequest(uid: Option<string>, token: Option<string>, newPassword: Option<string>, salt: string)
    | ProfileGetRequest
    | ProfileCreateRequest(profile: ProfileInput)
    | ProfileUpdateRequest(profile: ProfileInput)
    | ProfileDeleteRequest

  /** A key that was handed out and is no longer stored: keys only come
      from the ever-growing counter, so such a key is never stored again. */
  predicate Retired(s: Store, id: UserId) {
    id !in s.users && id < s.nextId
  }

  /** The handler a request reaches. No request brings a retired key back. */
  function Handle(lib: Lib, s: Store, req: Request): (out: (Response, Store))
    requires Valid(s)
    ensures Valid(out.1)
    ensures forall id :: Retired(s, id) ==> Retired(out.1, id)
  {
    match req
    case RegisterRequest(input, salt) => RegisterKeepsRetired(lib, s, input, salt); Register(lib, s, input, salt)
    case ActivateRequest(uid, token) => ActivateKeepsRetired(lib, s, uid, token); Activate(lib, s, uid, token)
    case LoginRequest(email, password, now) => LoginKeepsRetired(lib, s, email, password, now); Login(lib, s, email, password, now)
    case LogoutRequest => Logout(s)
    case UserDetailRequest => UserDetail(s)
    case UserDetailUpdateRequest(input) => UserDetailUpdateKeepsRetired(lib, s, input); UserDetailUpdate(lib, s, input)
    case ChangePasswordRequest(oldPassword, newPassword, salt) =>
      ChangePasswordKeepsRetired(lib, s, oldPassword, newPassword, salt);
      ChangePassword(lib, s, oldPassword, newPassword, salt)
    case DeleteAccountRequest => DeleteAccountKeepsRetired(s); DeleteAccount(s)
    case RequestResetRequest(email) => RequestReset(lib, s, email)
    case ConfirmResetRequest(uid, token, newPassword, salt) =>
      ConfirmResetKeepsRetired(lib, s, uid, token, newPassword, salt);
      ConfirmReset(lib, s, uid, token, newPassword, salt)
    case ProfileGetRequest => ProfileGet(s)
    case ProfileCreateRequest(profile) => ProfileCreate(s, profile)
    case ProfileUpdateRequest(profile) => ProfileUpdate(s, profile)
    case ProfileDeleteRequest => ProfileDelete(s)
  }

  // One lemma per handler that writes to the users table.

  lemma RegisterKeepsRetired(lib: Lib, s: Store, input: UserInput, salt: string)
    requires Valid(s)
    ensures forall id :: Retired(s, id) ==> Retired(Register(lib, s, input, salt).1, id)
  {
  }

  lemma ActivateKeepsRetired(lib: Lib, s: Store, uid: Option<string>, token: Option<string>)
    requires Valid(s)
    ensures forall id :: Retired(s, id) ==> Retired(Activate(lib, s, uid, token).1, id)
  {
    var c := CheckLink(lib, s, uid, token);
    assert c.LinkOk? ==> c.id in s.users;
  }

  lemma LoginKeepsRetired(lib: Lib, s: Store, email: Option<string>, password: Option<string>, now: nat)
    requires Valid(s)
    ensures forall id :: Retired(s, id) ==> Retired(Login(lib, s, email, password, now).1, id)
  {
  }

  lemma UserDetailUpdateKeepsRetired(lib: Lib, s: Store, input: UserInput)
    requires Valid(s)
    ensures forall id :: Retired(s, id) ==> Retired(UserDetailUpdate(lib, s, input).1, id)
  {
  }

  lemma ChangePasswordKeepsRetired(lib: Lib, s: Store, oldPassword: Option<string>, newPassword: Option<string>, salt: string)
    requires Valid(s)
    ensures forall id :: Retired(s, id) ==> Retired(ChangePassword(lib, s, oldPassword, newPassword, salt).1, id)
  {
  }

  lemma DeleteAccountKeepsRetired(s: Store)
    requires Valid(s)
    ensures forall id :: Retired(s, id) ==> Retired(DeleteAccount(s).1, id)
  {
  }

  lemma ConfirmResetKeepsRetired(lib: Lib, s: Store, uid: Option<string>, token: Option<string>, newPassword: Option<string>, salt: string)
    requires Valid(s)
    ensures forall id :: Retired(s, id) ==> Retired(ConfirmReset(lib, s, uid, token, newPassword, salt).1, id)
  {
    var c := CheckLink(lib, s, uid, token);
    assert c.LinkOk? ==> c.id in s.users;
  }

  /** The store after a sequence of requests, handled in order. */
  function Run(lib: Lib, s: Store, reqs: seq<Request>): (t: Store)
    requires Valid(s)
    ensures Valid(t)
    decreases |reqs|
  {
    if reqs == [] then s else Run(lib, Handle(lib, s, reqs[0]).1, reqs[1..])
  }

  /** No sequence of requests brings a retired key back. */
  lemma {:induction false} RunKeepsRetired(lib: Lib, s: Store, reqs: seq<Request>, id: UserId)
    requires Valid(s) && Retired(s, id)
    ensures Retired(Run(lib, s, reqs), id)
    decreases |reqs|
  {
    if reqs != [] {
      RunKeepsRetired(lib, Handle(lib, s, reqs[0]).1, reqs[1..], id);
    }
  }

  /** Once an account is deleted, no later sequence of requests stores it
      again or opens a session for it, whatever the authentication service
      answers. */
  lemma DeletedAccountCannotLogIn(lib: Lib, s: Store, later: seq<Request>)
    requires Valid(s) && s.session.Some?
    ensures var id := s.session.value;
      var t := Run(lib, DeleteAccount(s).1, later);
      id !in t.users && t.session != Some(id)
  {
    RunKeepsRetired(lib, DeleteAccount(s).1, later, s.session.value);
  }
}

=== FILE: serializers.dfy ===
/** The two serializers: input validation for users and profiles, and the
    create/update steps that turn validated input into stored rows. */
module Serializers {
  import opened Wrappers
  import opened Text
  import opened Models
  import opened Library
  import opened Store
  import opened Signals
  import opened Integrity
  import opened Managers

  /** One validation error: the field it belongs to and its message. Errors
      of the object-level check go under "non_field_errors". */
  datatype FieldError = FieldError(field: string, message: string)

  const RequiredMessage := "This field is required."
  const BlankMessage := "This field may not be blank."
  const NullMessage := "This field may not be null."
  const InvalidEmailText := "Enter a valid email address."
  const DuplicateEmailText := "A user with this email already exists."
  const MismatchText := "Password and Confirm Password don't match."
  const InvalidMobileText := "Invalid mobile number format. Please enter a 10-digit number."
  const MobileTooLongText := "Ensure this field has no more than 20 characters."
  const LocationTooLongText := "Ensure this field has no more than 30 characters."
  const BioTooLongText := "Ensure this field has no more than 500 characters."

  // --------------------------------------------------------------- fields

  /** One field of a request body: left out, sent as JSON null, or sent as
      a string. */
  datatype Field = Absent | Null | Sent(text: string)

  /** What a text field puts into the validated data: the string sent, with
      the whitespace around it removed (DRF's text fields trim by default);
      nothing when the field was left out. */
  function Cleaned(f: Field): (r: Option<string>)
    ensures r.Some? <==> f.Sent?
  {
    if f.Sent? then Some(Strip(f.text)) else None
  }

  /** What a nullable field puts into the validated data: null becomes an
      explicit `None`. Such fields are taken as sent, untrimmed. */
  function Nullable(f: Field): (r: Option<Option<string>>)
    ensures r.None? <==> f.Absent?
    ensures r == Some(None) <==> f.Null?
    ensures f.Sent? ==> r == Some(Some(f.text))
  {
    match f
    case Absent => None
    case Null => Some(None)
    case Sent(v) => Some(Some(v))
  }

  /** The framework checks of a trimmed text field that refuses null, in the
      framework's order: a value that is blank once trimmed is refused unless
      blanks are allowed; a missing value is refused only when the field is
      required; null is always refused. */
  function TextFieldError(f: Field, required: bool, allowBlank: bool): (r: Option<string>)
    ensures r.None? <==>
      match f
      case Absent => !required
      case Null => false
      case Sent(v) => allowBlank || !AllSpace(v)
    ensures f.Null? ==> r == Some(NullMessage)
    ensures f.Sent? && !allowBlank && AllSpace(f.text) ==> r == Some(BlankMessage)
  {
    match f
    case Absent => if required then Some(RequiredMessage) else None
    case Null => Some(NullMessage)
    case Sent(v) => if !allowBlank && Strip(v) == "" then Some(BlankMessage) else None
  }

  function ErrorsOf(field: string, e: Option<string>): seq<FieldError> {
    if e.Some? then [FieldError(field, e.value)] else []
  }

  // ---------------------------------------------------------------- users

  /** The fields a client posts to the user serializer. */
  datatype UserInput = UserInput(email: Field, password: Field, confirmPassword: Field)

  /** `UserSerializer.validate_email`: the format first, then whether the
      email, exactly as given, is already stored. `None` means accepted. */
  function ValidateEmail(lib: Lib, users: map<UserId, User>, value: string): (r: Option<string>)
    ensures r.None? <==> lib.emailMessages(value) == [] && !EmailTaken(users, value)
    ensures lib.emailMessages(value) != [] ==> r == Some(InvalidEmailText)
    ensures lib.emailMessages(value) == [] && EmailTaken(users, value) ==> r == Some(DuplicateEmailText)
  {
    if lib.emailMessages(value) != [] then Some(InvalidEmailText)
    else if EmailTaken(users, value) then Some(DuplicateEmailText)
    else None
  }

  /** `UserSerializer.validate`: the two validated passwords, each possibly
      absent, must be equal. */
  function ValidatePasswords(password: Option<string>, confirmPassword: Option<string>): (r: Option<string>)
    ensures r.None? <==> password == confirmPassword
    ensures r.Some? ==> r.value == MismatchText
  {
    if password != confirmPassword then Some(MismatchText) else None
  }

  /** The email field's checks: the text-field checks, then `validate_email`
      on the trimmed value. The field is required unless the update is partial. */
  function EmailFieldError(lib: Lib, users: map<UserId, User>, f: Field, partial: bool): Option<string> {
    match TextFieldError(f, !partial, false)
    case Some(e) => Some(e)
    case None => if f.Sent? then ValidateEmail(lib, users, Strip(f.text)) else None
  }

  /** What the user serializer accepts: no field null, every field sent
      unless the update is partial, no sent field blank once trimmed, a
      well-formed trimmed email that no stored user has, and trimmed
      passwords that are equal. */
  predicate UserInputValid(lib: Lib, users: map<UserId, User>, input: UserInput, partial: bool) {
    && (!partial ==> input.email.Sent? && input.password.Sent? && input.confirmPassword.Sent?)
    && !input.email.Null? && !input.password.Null? && !input.confirmPassword.Null?
    && (input.email.Sent? ==>
          !AllSpace(input.email.text) && lib.emailMessages(Strip(input.email.text)) == []
          && !EmailTaken(users, Strip(input.email.text)))
    && (input.password.Sent? ==> !AllSpace(input.password.text))
    && (input.confirmPassword.Sent? ==> !AllSpace(input.confirmPassword.text))
    && Cleaned(input.password) == Cleaned(input.confirmPassword)
  }

  /** `is_valid()` followed by `errors`: the field errors in field order, and
      only when there are none, the object-level password check. */
  function UserErrors(lib: Lib, users: map<UserId, User>, input: UserInput, partial: bool): (errs: seq<FieldError>)
    ensures errs == [] <==> UserInputValid(lib, users, input, partial)
    ensures input.email.Sent? && EmailTaken(users, Strip(input.email.text)) ==> errs != []
    ensures Cleaned(input.password) != Cleaned(input.confirmPassword) ==> errs != []
    ensures input.email.Null? ==> FieldError("email", NullMessage) in errs
    ensures input.password.Null? ==> FieldError("password", NullMessage) in errs
    ensures input.confirmPassword.Null? ==> FieldError("confirm_password", NullMessage) in errs
    ensures input.password.Sent? && AllSpace(input.password.text) ==> FieldError("password", BlankMessage) in errs
  {
    var fieldErrs :=
      ErrorsOf("email", EmailFieldError(lib, users, input.email, partial))
      + ErrorsOf("password", TextFieldError(input.password, !partial, false))
      + ErrorsOf("confirm_password", TextFieldError(input.confirmPassword, !partial, false));
    if fieldErrs != [] then fieldErrs
    else ErrorsOf("non_field_errors", ValidatePasswords(Cleaned(input.password), Cleaned(input.confirmPassword)))
  }

  /** The passwords are compared once trimmed: a password sent with a
      trailing space matches its confirmation sent without, and what the
      serializer hands on is the password without the space. */
  lemma TrimmedPasswordsMatch(lib: Lib, users: map<UserId, User>, email: string, password: string)
    requires !AllSpace(email) && lib.emailMessages(Strip(email)) == [] && !EmailTaken(users, Strip(email))
    requires password != [] && Bare(password)
    ensures UserInputValid(lib, users, UserInput(Sent(email), Sent(password + " "), Sent(password)), false)
    ensures Cleaned(Sent(password + " ")) == Some(password)
  {
    var padded := password + " ";
    assert padded[0] == password[0];
    assert padded[..|padded| - 1] == password;
    assert Strip(padded) == password;
    assert Strip(password) == password;
  }

  /** `UserSerializer.create`: create an ordinary user through the manager,
      then set it inactive and save it again. That second save runs the hook
      with `created` false, so it adds no profile and no group. */
  function CreateFromSerializer(lib: Lib, s: Store, email: string, password: string, salt: string): (r: CreateResult)
    requires Valid(s)
    ensures r.Created? ==>
      && r.id == s.nextId && r.id !in s.users && r.store.users.Keys == s.users.Keys + {r.id}
      && (forall k :: k in s.users ==> r.store.users[k] == s.users[k])
      && !r.store.users[r.id].isActive && !r.store.users[r.id].isAdmin
      && !r.store.users[r.id].isSuperuser
      && r.store.users[r.id].email == lib.normalizeEmail(email)
      && r.store.users[r.id].pwd == lib.makePassword(Some(password), salt)
      && r.store.profiles == s.profiles[r.id := BlankProfile()]
      && r.store.groups == s.groups + {UserGroup}
      && r.store.memberships == s.memberships + {Membership(r.id, UserGroup)}
      && r.store.outbox == s.outbox && r.store.session == s.session
      && r.store.nextId == s.nextId + 1
      && Valid(r.store)
    ensures r.Raised? <==> CreateUser(lib, s, email, password, salt, ExtraFields(None, None)).Raised?
    ensures r.Raised? ==> r == CreateUser(lib, s, email, password, salt, ExtraFields(None, None))
  {
    match CreateUser(lib, s, email, password, salt, ExtraFields(None, None))
    case Raised(e) => Raised(e)
    case Created(id, s1) =>
      var u := s1.users[id].(isActive := false);
      assert s1.(users := s1.users[id := u]) == s1;
      Created(id, PostSave(s1.(users := s1.users[id := u]), id, false))
  }

  /** `UserSerializer.update`: the email takes the supplied value, or keeps
      the old one; nothing else of the user changes. The save can hit the
      email column's constraints (`None`). */
  function UpdateFromSerializer(s: Store, id: UserId, email: Option<string>): (r: Option<Store>)
    requires Valid(s) && id in s.users
    ensures r.Some? ==> r.value == s.(users := r.value.users) && r.value.users.Keys == s.users.Keys
    ensures r.Some? ==> r.value.users[id] == s.users[id].(email := email.ValueOr(s.users[id].email))
    ensures r.Some? ==> forall k :: k in s.users && k != id ==> r.value.users[k] == s.users[k]
    ensures email.None? ==> r == Some(s)
    ensures r.None? <==> !EmailAdmissible(s.users, email.ValueOr(s.users[id].email), Some(id))
  {
    var u := s.users[id].(email := email.ValueOr(s.users[id].email));
    assert email.None? ==> s.(users := s.users[id := u]) == s;
    match UpdateUser(s, id, u)
    case None => None
    case Some(s1) => Some(PostSave(s1, id, false))
  }

  // ------------------------------------------------------------- profiles

  /** The fields a client posts to the profile serializer. */
  datatype ProfileInput = ProfileInput(
    mobile: Field, location: Field, dob: Field, bio: Field, gender: Field, avatar: Field)

  /** The profile serializer's `validated_data`: a field left out is `None`;
      the two nullable columns hold `Some(None)` when sent as null. */
  datatype ProfileChanges = ProfileChanges(
    mobile: Option<string>,
    location: Option<string>,
    dob: Option<Option<string>>,
    bio: Option<string>,
    gender: Option<string>,
    avatar: Option<Option<string>>)

  /** `ProfileSerializer.validate_mobile`: accepted exactly when the pattern
      `^[6-9]\d{9}$` matches the whole value. */
  function ValidateMobile(value: string): (r: Option<string>)
    ensures r.None? <==> ValidMobile(value)
    ensures r.Some? ==> r.value == InvalidMobileText
  {
    if MatchMobile(value) then None else Some(InvalidMobileText)
  }

  /** The mobile field: a required text field that may not be blank, at
      most `MobileMaxLength` characters once trimmed, then `validate_mobile`
      on the trimmed value. */
  function MobileError(f: Field): Option<string> {
    match TextFieldError(f, true, false)
    case Some(e) => Some(e)
    case None =>
      var v := Strip(f.text);
      if |v| > MobileMaxLength then Some(MobileTooLongText) else ValidateMobile(v)
  }

  /** The gender field, a choice field: required, not null, and one of the
      choices exactly as sent. */
  function GenderError(f: Field): Option<string> {
    match f
    case Absent => Some(RequiredMessage)
    case Null => Some(NullMessage)
    case Sent(g) => if g in GenderChoices then None else Some("\"" + g + "\" is not a valid choice.")
  }

  /** An optional text field that may be blank: not null, and at most `max`
      characters once trimmed. */
  function LengthError(f: Field, max: nat, text: string): Option<string> {
    match TextFieldError(f, false, true)
    case Some(e) => Some(e)
    case None => if f.Sent? && |Strip(f.text)| > max then Some(text) else None
  }

  /** What the profile serializer accepts for a create or a full update:
      a mobile number that is valid once trimmed and a gender among the
      choices, both required; location and bio not null, and within their
      column widths once trimmed when sent. Date of birth and avatar may be
      left out or null. */
  predicate ProfileInputValid(input: ProfileInput) {
    && input.mobile.Sent? && ValidMobile(Strip(input.mobile.text))
    && input.gender.Sent? && input.gender.text in GenderChoices
    && !input.location.Null? && (input.location.Sent? ==> |Strip(input.location.text)| <= LocationMaxLength)
    && !input.bio.Null? && (input.bio.Sent? ==> |Strip(input.bio.text)| <= BioMaxLength)
  }

  function ProfileErrors(input: ProfileInput): (errs: seq<FieldError>)
    ensures errs == [] <==> ProfileInputValid(input)
    ensures input.mobile.Sent? && !ValidMobile(Strip(input.mobile.text)) ==> errs != []
    ensures input.location.Null? ==> FieldError("location", NullMessage) in errs
    ensures input.bio.Null? ==> FieldError("bio", NullMessage) in errs
  {
    ErrorsOf("mobile", MobileError(input.mobile))
    + ErrorsOf("location", LengthError(input.location, LocationMaxLength, LocationTooLongText))
    + ErrorsOf("bio", LengthError(input.bio, BioMaxLength, BioTooLongText))
    + ErrorsOf("gender", GenderError(input.gender))
  }

  /** The validated data of a profile input: text fields trimmed, the
      choice taken as sent, the nullable fields with null kept. */
  function Validated(input: ProfileInput): (c: ProfileChanges)
    ensures c.mobile == Cleaned(input.mobile) && c.location == Cleaned(input.location)
    ensures c.bio == Cleaned(input.bio)
    ensures c.gender == (if input.gender.Sent? then Some(input.gender.text) else None)
    ensures c.dob == Nullable(input.dob) && c.avatar == Nullable(input.avatar)
    ensures ProfileInputValid(input) ==> ChangesValid(c)
  {
    ProfileChanges(Cleaned(input.mobile), Cleaned(input.location), Nullable(input.dob),
                   Cleaned(input.bio), if input.gender.Sent? then Some(input.gender.text) else None,
                   Nullable(input.avatar))
  }

  /** Validated data of an accepted input carries a well-formed mobile,
      gender, location and bio. */
  predicate ChangesValid(c: ProfileChanges) {
    && c.mobile.Some? && ValidMobile(c.mobile.value)
    && c.gender.Some? && c.gender.value in GenderChoices
    && (c.location.Some? ==> |c.location.value| <= LocationMaxLength)
    && (c.bio.Some? ==> |c.bio.value| <= BioMaxLength)
  }

  /** The row `Profile.objects.create(user=..., **validated_data)` builds:
      supplied fields as validated, the others at their column defaults. */
  function NewProfile(c: ProfileChanges): (p: Profile)
    requires ChangesValid(c)
    ensures ProfileWellFormed(p)
    ensures p.mobile == c.mobile.value && p.gender == c.gender.value
    ensures p.location == (if c.location.Some? then c.location.value else "")
    ensures p.bio == (if c.bio.Some? then c.bio.value else "")
    ensures p.dob == (if c.dob.Some? then c.dob.value else None)
    ensures p.avatar == (if c.avatar.Some? then c.avatar.value else None)
  {
    Profile(c.mobile.value, c.location.ValueOr(""), c.dob.ValueOr(None),
            c.bio.ValueOr(""), c.gender.value, c.avatar.ValueOr(None))
  }

  /** `ProfileSerializer.create`: the new profile belongs to the requesting
      user; a user who already has one makes the one-to-one key refuse it. */
  function CreateProfile(s: Store, user: UserId, c: ProfileChanges): (r: Option<Store>)
    requires ChangesValid(c)
    ensures r.None? <==> user in s.profiles
    ensures r.Some? ==>
      && r.value.profiles.Keys == s.profiles.Keys + {user}
      && r.value.profiles[user] == NewProfile(c)
      && (forall k :: k in s.profiles ==> r.value.profiles[k] == s.profiles[k])
      && r.value == s.(profiles := r.value.profiles)
  {
    InsertProfile(s, user, NewProfile(c))
  }

  /** `ProfileSerializer.update`: each of the six fields takes the validated
      value when there is one and keeps its prev value otherwise. */
  function UpdateProfile(prev: Profile, c: ProfileChanges): (p: Profile)
    ensures p.mobile == (if c.mobile.Some? then c.mobile.value else prev.mobile)
    ensures p.location == (if c.location.Some? then c.location.value else prev.location)
    ensures p.dob == (if c.dob.Some? then c.dob.value else prev.dob)
    ensures p.bio == (if c.bio.Some? then c.bio.value else prev.bio)
    ensures p.gender == (if c.gender.Some? then c.gender.value else prev.gender)
    ensures p.avatar == (if c.avatar.Some? then c.avatar.value else prev.avatar)
  {
    Profile(
      c.mobile.ValueOr(prev.mobile),
      c.location.ValueOr(prev.location),
      c.dob.ValueOr(prev.dob),
      c.bio.ValueOr(prev.bio),
      c.gender.ValueOr(prev.gender),
      c.avatar.ValueOr(prev.avatar))
  }

  /** An update that supplies nothing leaves the profile as it was, and
      applying the same update twice is the same as applying it once. */
  lemma UpdateProfileIdentityAndIdempotent(prev: Profile, c: ProfileChanges)
    ensures UpdateProfile(prev, ProfileChanges(None, None, None, None, None, None)) == prev
    ensures UpdateProfile(UpdateProfile(prev, c), c) == UpdateProfile(prev, c)
  {
  }

  /** A validated full update of a well-formed profile is well formed. */
  lemma UpdateProfileWellFormed(prev: Profile, c: ProfileChanges)
    requires ProfileWellFormed(prev) && ChangesValid(c)
    ensures ProfileWellFormed(UpdateProfile(prev, c))
  {
  }
}

=== FILE: signals.dfy ===
/** The hook that runs after every save of a user row: on the first save it
    puts the new user into its role group and creates the user's profile. */
module Signals {
  import opened Models
  import opened Store

  const AdminGroup := "AdminProfile"
  const UserGroup := "UserProfile"

  /** The group a user is put in when created: admins and everyone else apart. */
  function RoleGroup(u: User): string {
    if u.isAdmin then AdminGroup else UserGroup
  }

  /** `Group.objects.get_or_create(name=name)`: the existing group when there
      is one, otherwise a new one. Groups are identified by name, so there is
      never more than one per name. */
  function GetOrCreateGroup(groups: set<string>, name: string): (r: set<string>)
    ensures name in r && groups <= r
    ensures forall g :: g in r && g != name ==> g in groups
    ensures name in groups ==> r == groups
    ensures |r| <= |groups| + 1
  {
    if name in groups then groups else groups + {name}
  }

  /** The post-save hook for user `id`. It acts only when the save created the
      row; a later save of the same user changes nothing. */
  function PostSave(s: Store, id: UserId, created: bool): (r: Store)
    requires id in s.users
    requires created ==> id !in s.profiles
    ensures !created ==> r == s
    ensures created ==>
      && r.users == s.users && r.session == s.session
      && r.outbox == s.outbox && r.nextId == s.nextId
    ensures created ==>
      && r.profiles.Keys == s.profiles.Keys + {id}
      && r.profiles[id] == BlankProfile()
      && forall k :: k in s.profiles ==> r.profiles[k] == s.profiles[k]
    ensures created ==>
      && RoleGroup(s.users[id]) in r.groups
      && forall g :: g in r.groups && g != RoleGroup(s.users[id]) ==> g in s.groups
    ensures created ==>
      forall m :: m in r.memberships <==> m in s.memberships || m == Membership(id, RoleGroup(s.users[id]))
    ensures created ==>
      && r.groups == s.groups + {RoleGroup(s.users[id])}
      && r.memberships == s.memberships + {Membership(id, RoleGroup(s.users[id]))}
  {
    if created then
      var name := RoleGroup(s.users[id]);
      s.(groups := GetOrCreateGroup(s.groups, name),
         memberships := s.memberships + {Membership(id, name)},
         profiles := s.profiles[id := BlankProfile()])
    else
      s
  }
}

=== FILE: store.dfy ===
/** The whole persistent state as one immutable value: the user and profile
    tables, the groups and user-group relation, the session, and a record of
    the mails handed to the mail service. The row operations here enforce the
    constraints the database schema declares. */
module Store {
  import opened Wrappers
  import opened Models

  datatype MailKind = ActivationMail | ResetPasswordMail

  /** A mail handed to the mail service: its recipient and the uid/token
      pair its link carries. */
  datatype Mail = Mail(kind: MailKind, to: string, uid: string, token: string)

  /** One row of the user-group relation. */
  datatype Membership = Membership(user: UserId, group: string)

  datatype Store = Store(
    users: map<UserId, User>,
    profiles: map<UserId, Profile>,
    groups: set<string>,
    memberships: set<Membership>,
    /** The user logged in on the current session, if any. */
    session: Option<UserId>,
    /** Every mail sent so far, oldest first. */
    outbox: seq<Mail>,
    /** The next value of the auto-incremented primary key. */
    nextId: UserId)

  /** Every stored key is below the next key to be handed out. */
  predicate FreshIds(s: Store) {
    forall id :: id in s.users ==> id < s.nextId
  }

  /** No two users share an email (the unique constraint on the column). */
  predicate EmailsUnique(users: map<UserId, User>) {
    forall a, b :: a in users && b in users && a != b ==> users[a].email != users[b].email
  }

  /** `User.objects.filter(email=value).exists()`: exact comparison. */
  predicate EmailTaken(users: map<UserId, User>, email: string) {
    exists id :: id in users && users[id].email == email
  }

  /** The email column accepts `email` for the row `self` (`None` for a new
      row): it fits in 255 characters and no other row holds it. */
  predicate EmailAdmissible(users: map<UserId, User>, email: string, self: Option<UserId>) {
    && |email| <= EmailMaxLength
    && forall id :: id in users && Some(id) != self ==> users[id].email != email
  }

  /** INSERT of a new user row under the next key; `None` is the integrity
      error the email constraints raise. */
  function InsertUser(s: Store, u: User): (r: Option<(UserId, Store)>)
    requires FreshIds(s)
    ensures r.None? <==> !EmailAdmissible(s.users, u.email, None)
    ensures r.Some? ==>
      && r.value.0 !in s.users
      && r.value.1.users == s.users[r.value.0 := u]
      && r.value.1 == s.(users := r.value.1.users, nextId := r.value.1.nextId)
      && FreshIds(r.value.1)
  {
    if EmailAdmissible(s.users, u.email, None) then
      Some((s.nextId, s.(users := s.users[s.nextId := u], nextId := s.nextId + 1)))
    else
      None
  }

  /** UPDATE of an existing user row; `None` is the integrity error. */
  function UpdateUser(s: Store, id: UserId, u: User): (r: Option<Store>)
    requires id in s.users
    ensures r.None? <==> !EmailAdmissible(s.users, u.email, Some(id))
    ensures r.Some? ==> r.value.users.Keys == s.users.Keys && r.value.users[id] == u
    ensures r.Some? ==> forall k :: k in s.users && k != id ==> r.value.users[k] == s.users[k]
    ensures r.Some? ==> r.value == s.(users := r.value.users)
  {
    if EmailAdmissible(s.users, u.email, Some(id)) then Some(s.(users := s.users[id := u])) else None
  }

  /** DELETE of a user row. The profile goes with it (its foreign key
      cascades) and so do the user's group-relation rows; groups remain. */
  function DeleteUser(s: Store, id: UserId): (r: Store)
    ensures r.users.Keys == s.users.Keys - {id}
    ensures r.profiles.Keys == s.profiles.Keys - {id}
    ensures forall k :: k in r.users ==> r.users[k] == s.users[k]
    ensures forall k :: k in r.profiles ==> r.profiles[k] == s.profiles[k]
    ensures forall m :: m in r.memberships <==> m in s.memberships && m.user != id
    ensures r.groups == s.groups && r.session == s.session && r.outbox == s.outbox && r.nextId == s.nextId
  {
    s.(users := s.users - {id},
       profiles := s.profiles - {id},
       memberships := set m | m in s.memberships && m.user != id)
  }

  /** INSERT of a profile row for user `id`; `None` is the integrity error the
      one-to-one key raises when the user already has a profile. */
  function InsertProfile(s: Store, id: UserId, p: Profile): (r: Option<Store>)
    ensures r.None? <==> id in s.profiles
    ensures r.Some? ==> r.value.profiles.Keys == s.profiles.Keys + {id} && r.value.profiles[id] == p
    ensures r.Some? ==> forall k :: k in s.profiles ==> r.value.profiles[k] == s.profiles[k]
    ensures r.Some? ==> r.value == s.(profiles := r.value.profiles)
  {
    if id in s.profiles then None else Some(s.(profiles := s.profiles[id := p]))
  }

  /** `User.objects.get(email=email)` when exactly one row matches. */
  function FindByEmail(users: map<UserId, User>, email: string): (id: UserId)
    requires EmailsUnique(users) && EmailTaken(users, email)
    ensures id in users && users[id].email == email
  {
    var id :| id in users && users[id].email == email; id
  }
}

=== FILE: text.dfy ===
/** Character-level checks used by the validators: the mobile-number pattern
    of the profile serializer and Python's substring test `frag in s`. */
module Text {

  /** Python's `\d`, restricted to the ASCII digits. */
  predicate IsDigit(c: char) {
    '0' <= c <= '9'
  }

  /** The mobile format in declarative form: ten characters, the first in
      '6'..'9', the other nine digits. */
  predicate ValidMobile(s: string) {
    && |s| == 10
    && '6' <= s[0] <= '9'
    && forall i :: 1 <= i < |s| ==> IsDigit(s[i])
  }

  /** `\d{n}$` anchored at the start of `s`: exactly `n` digits remain. */
  function DigitRun(s: string, n: nat): (r: bool)
    ensures r <==> |s| == n && forall i :: 0 <= i < |s| ==> IsDigit(s[i])
  {
    if n == 0 then s == []
    else s != [] && IsDigit(s[0]) && DigitRun(s[1..], n - 1)
  }

  /** `re.fullmatch(r'^[6-9]\d{9}$', s)`, read left to right as the pattern is
      written: one character class, then a run of nine digits up to the end. */
  function MatchMobile(s: string): (r: bool)
    ensures r <==> ValidMobile(s)
  {
    s != [] && '6' <= s[0] <= '9' && DigitRun(s[1..], 9)
  }

  /** Python's `str.isspace` for one character: the ASCII whitespace, the
      four information separators, and the Unicode space and line/paragraph
      separators. */
  predicate IsSpace(c: char) {
    c in SpaceChars
  }

  const SpaceChars: set<char> := {
    ' ', '\t', '\n', '\r', '\U{000B}', '\U{000C}', '\U{001C}', '\U{001D}', '\U{001E}', '\U{001F}',
    '\U{0085}', '\U{00A0}', '\U{1680}', '\U{2000}', '\U{2001}', '\U{2002}', '\U{2003}', '\U{2004}',
    '\U{2005}', '\U{2006}', '\U{2007}', '\U{2008}', '\U{2009}', '\U{200A}', '\U{2028}', '\U{2029}',
    '\U{202F}', '\U{205F}', '\U{3000}'}

  /** Every character of `s` is whitespace (vacuously so for ""). */
  predicate AllSpace(s: string) {
    forall k :: 0 <= k < |s| ==> IsSpace(s[k])
  }

  /** `s` neither starts nor ends with whitespace. */
  predicate Bare(s: string) {
    s == [] || (!IsSpace(s[0]) && !IsSpace(s[|s| - 1]))
  }

  /** `r` is what is left of `s` once a run of whitespace is cut from each
      end and nothing more: `s` is whitespace, then `r`, then whitespace, and
      `r` is bare. */
  ghost predicate IsStripOf(s: string, r: string) {
    exists i :: 0 <= i <= |s| - |r| && s[i..i + |r|] == r && AllSpace(s[..i]) && AllSpace(s[i + |r|..]) && Bare(r)
  }

  /** `s.lstrip()`. */
  function StripStart(s: string): (r: string)
    ensures |r| <= |s| && r == s[|s| - |r|..]
    ensures AllSpace(s[..|s| - |r|])
    ensures r != [] ==> !IsSpace(r[0])
  {
    if s != [] && IsSpace(s[0]) then
      var r := StripStart(s[1..]);
      assert s[..|s| - |r|] == [s[0]] + s[1..][..|s| - 1 - |r|];
      r
    else s
  }

  /** `s.rstrip()`. */
  function StripEnd(s: string): (r: string)
    ensures |r| <= |s| && r == s[..|r|]
    ensures AllSpace(s[|r|..])
    ensures r != [] ==> !IsSpace(r[|r| - 1])
  {
    if s != [] && IsSpace(s[|s| - 1]) then
      var r := StripEnd(s[..|s| - 1]);
      assert s[|r|..] == s[..|s| - 1][|r|..] + [s[|s| - 1]];
      r
    else s
  }

  /** `s.strip()`: whitespace removed from both ends. Blank means nothing
      is left. */
  function Strip(s: string): (r: string)
    ensures |r| <= |s|
    ensures r == [] <==> AllSpace(s)
  {
    var a := StripStart(s);
    assert s == s[..|s| - |a|] + a;
    StripEnd(a)
  }

  /** What `Strip` leaves is exactly `s` with its two whitespace ends cut off. */
  lemma StripCuts(s: string)
    ensures IsStripOf(s, Strip(s))
  {
    var a := StripStart(s);
    var r := StripEnd(a);
    var i := |s| - |a|;
    assert s[i..i + |r|] == r;
    assert s[i + |r|..] == a[|r|..];
  }

  /** What a witness of `IsStripOf` says position by position: whitespace
      before `i` and after the kept part, and bare characters at its two
      ends; the kept part is empty exactly when `s` is all whitespace. */
  lemma StripOfParts(s: string, r: string, i: int)
    requires 0 <= i <= |s| - |r| && s[i..i + |r|] == r && AllSpace(s[..i]) && AllSpace(s[i + |r|..]) && Bare(r)
    ensures forall k :: 0 <= k < i ==> IsSpace(s[k])
    ensures forall k :: i + |r| <= k < |s| ==> IsSpace(s[k])
    ensures r != [] ==> !IsSpace(s[i]) && !IsSpace(s[i + |r| - 1])
    ensures r == [] <==> AllSpace(s)
  {
    forall k | 0 <= k < i
      ensures IsSpace(s[k])
    {
      assert s[..i][k] == s[k];
    }
    forall k | i + |r| <= k < |s|
      ensures IsSpace(s[k])
    {
      assert s[i + |r|..][k - i - |r|] == s[k];
    }
    if r != [] {
      assert s[i] == r[0];
      assert s[i + |r| - 1] == r[|r| - 1];
    } else {
      forall k | 0 <= k < |s|
        ensures IsSpace(s[k])
      {
        if k >= i {
          assert s[i + |r|..][k - i] == s[k];
        }
      }
    }
  }

  /** There is only one way to cut whitespace from both ends of a string
      until both ends are bare, so `Strip` is the one. */
  lemma StripUnique(s: string, r1: string, r2: string)
    requires IsStripOf(s, r1) && IsStripOf(s, r2)
    ensures r1 == r2
  {
    var i1 :| 0 <= i1 <= |s| - |r1| && s[i1..i1 + |r1|] == r1 && AllSpace(s[..i1]) && AllSpace(s[i1 + |r1|..]) && Bare(r1);
    var i2 :| 0 <= i2 <= |s| - |r2| && s[i2..i2 + |r2|] == r2 && AllSpace(s[..i2]) && AllSpace(s[i2 + |r2|..]) && Bare(r2);
    StripOfParts(s, r1, i1);
    StripOfParts(s, r2, i2);
    if r1 != [] {
      assert i1 == i2 && |r1| == |r2|;
    }
  }

  /** A string with bare ends is left as it is. */
  lemma StripBare(s: string)
    requires Bare(s)
    ensures Strip(s) == s
  {
  }

  /** Stripping twice is stripping once. */
  lemma StripIdempotent(s: string)
    ensures Strip(Strip(s)) == Strip(s)
  {
    var r := Strip(s);
    assert IsStripOf(r, r) by {
      assert r[0..0 + |r|] == r && r[..0] == [] && r[0 + |r|..] == [];
    }
    StripCuts(r);
    StripUnique(r, Strip(r), r);
  }

  /** `frag` occurs in `s` starting at offset `i`. */
  predicate OccursAt(s: string, frag: string, i: nat) {
    i + |frag| <= |s| && s[i..i + |frag|] == frag
  }

  /** `frag` occurs in `s` at some offset. */
  ghost predicate HasSubstring(s: string, frag: string) {
    exists i: nat :: OccursAt(s, frag, i)
  }

  /** Python's `frag in s` on two strings, by scanning the offsets of `s`. */
  function Contains(s: string, frag: string): bool
    decreases |s|
  {
    if |s| < |frag| then false
    else s[..|frag|] == frag || (s != [] && Contains(s[1..], frag))
  }

  /** The scan finds `frag` exactly when it occurs somewhere in `s`. */
  lemma {:induction false} ContainsIsSubstring(s: string, frag: string)
    ensures Contains(s, frag) <==> HasSubstring(s, frag)
    decreases |s|
  {
    if |s| < |frag| {
    } else if s[..|frag|] == frag {
      assert OccursAt(s, frag, 0);
    } else if s == [] {
    } else {
      ContainsIsSubstring(s[1..], frag);
      if HasSubstring(s, frag) {
        var i: nat :| OccursAt(s, frag, i);
        assert i != 0;
        assert s[1..][i - 1..i - 1 + |frag|] == s[i..i + |frag|];
        assert OccursAt(s[1..], frag, i - 1);
      }
      if HasSubstring(s[1..], frag) {
        var j: nat :| OccursAt(s[1..], frag, j);
        assert s[j + 1..j + 1 + |frag|] == s[1..][j..j + |frag|];
        assert OccursAt(s, frag, j + 1);
      }
    }
  }
}

=== FILE: views.dfy ===
/** The request handlers. Each is a pure transition from a store and a
    request to a response and the next store. */
module Views {
  import opened Wrappers
  import opened Text
  import opened Models
  import opened Library
  import opened Store
  import opened Signals
  import opened Integrity
  import opened Managers
  import opened Serializers

  /** What a 500 response reports: the exception that reached the handler. */
  datatype Cause = ValueErrorRaised(msg: string) | IntegrityErrorRaised | UidNotDecodable

  datatype Body =
    | Detail(text: string)
    | Errors(errors: seq<FieldError>)
    | UserData(email: string, isStaff: Option<bool>)
    | ProfileData(profile: Profile)
    | ServerError(cause: Cause)

  datatype Response = Response(status: int, body: Body)

  const RegisteredText := "Registration successful. Please Cheak your email Activation email sent."
  const MissingLinkText := "Missing uid or token."
  const AlreadyActiveText := "Account is already activated."
  const ActivatedText := "Account activated successfully."
  const InvalidActivationText := "Invalid activation link."
  const LoggedInText := "Logged in successfully."
  const NotActivatedText := "Account is not activated."
  const BadCredentialsText := "Email or Password is incorrect."
  const LoggedOutText := "Logged out successfully."
  const InvalidOldPasswordText := "Invalid old password."
  const PasswordChangedText := "Password changed successfully."
  const AccountDeletedText := "Account deleted successfully."
  const NoSuchEmailText := "User with this email does not exist."
  const ResetSentText := "Password reset email sent successfully."
  const NewPasswordRequiredText := "New password is required."
  const PasswordResetText := "Password reset successful."
  const InvalidResetText := "Invalid reset password link."
  const NoProfileText := "Profile does not exist."
  const ProfileDeletedText := "Profile deleted successfully."

  /** The answer to a request that needs a logged-in user and has none. */
  const NotAuthenticated := Response(403, Detail("Authentication credentials were not provided."))

  /** Python truthiness of a request field: present and not empty. */
  predicate Given(v: Option<string>) {
    v.Some? && v.value != ""
  }

  // ---------------------------------------------------------- registration

  /** The part of registration after validation: `serializer.save()` with
      the validated email and password, then the activation mail, carrying
      the new user's encoded key and a token made for it. */
  function SaveAndMail(lib: Lib, s: Store, email: string, password: string, salt: string): (out: (Response, Store))
    requires Valid(s)
    ensures Valid(out.1)
    ensures out.0.status != 201 ==> out.1 == s
    ensures lib.emailMessages(email) == [] && lib.passwordMessages(password) != [] ==>
      out == (Response(500, ServerError(ValueErrorRaised(FailureMessage(lib.passwordMessages(password))))), s)
    ensures lib.emailMessages(email) == [] && lib.passwordMessages(password) == [] ==>
      if EmailAdmissible(s.users, lib.normalizeEmail(email), None) then out.0.status == 201
      else out == (Response(500, ServerError(IntegrityErrorRaised)), s)
    ensures out.0.status == 201 ==>
      && out.0 == Response(201, Detail(RegisteredText))
      && s.nextId !in s.users
      && out.1.users.Keys == s.users.Keys + {s.nextId}
      && (forall k :: k in s.users ==> out.1.users[k] == s.users[k])
      && out.1.users[s.nextId].email == lib.normalizeEmail(email)
      && out.1.users[s.nextId].pwd == lib.makePassword(Some(password), salt)
      && !out.1.users[s.nextId].isActive && !out.1.users[s.nextId].isAdmin
      && out.1.profiles == s.profiles[s.nextId := BlankProfile()]
      && out.1.groups == s.groups + {UserGroup}
      && out.1.memberships == s.memberships + {Membership(s.nextId, UserGroup)}
      && out.1.nextId == s.nextId + 1
      && out.1.outbox == s.outbox + [Mail(ActivationMail, out.1.users[s.nextId].email,
                                          lib.encodeUid(s.nextId), lib.makeToken(s.nextId, out.1.users[s.nextId]))]
      && out.1.session == s.session
  {
    match CreateFromSerializer(lib, s, email, password, salt)
    case Raised(ValueError(msg)) => (Response(500, ServerError(ValueErrorRaised(msg))), s)
    case Raised(IntegrityError) => (Response(500, ServerError(IntegrityErrorRaised)), s)
    case Created(id, s1) =>
      var u := s1.users[id];
      var mail := Mail(ActivationMail, u.email, lib.encodeUid(id), lib.makeToken(id, u));
      (Response(201, Detail(RegisteredText)), s1.(outbox := s1.outbox + [mail]))
  }

  /** Registration: validate the input, then create the user (inactive) from
      the trimmed email and password and mail it an activation link. */
  function Register(lib: Lib, s: Store, input: UserInput, salt: string): (out: (Response, Store))
    requires Valid(s)
    ensures Valid(out.1)
    ensures out.0.status != 201 ==> out.1 == s
    ensures !UserInputValid(lib, s.users, input, false) ==>
      out == (Response(400, Errors(UserErrors(lib, s.users, input, false))), s)
    ensures UserInputValid(lib, s.users, input, false) ==>
      out == SaveAndMail(lib, s, Strip(input.email.text), Strip(input.password.text), salt)
      && lib.emailMessages(Strip(input.email.text)) == []
  {
    var errs := UserErrors(lib, s.users, input, false);
    if errs != [] then (Response(400, Errors(errs)), s)
    else SaveAndMail(lib, s, Strip(input.email.text), Strip(input.password.text), salt)
  }

  // ----------------------------------------------------------------- links

  /** How the uid/token pair of an emailed link resolves against the store. */
  datatype LinkCheck = MissingParts | BadUid | UnknownUser | BadToken | LinkOk(id: UserId)

  /** The part the activation and reset confirmations share: both fields must
      be given, the uid must decode to a stored key, and the token must check
      against that user in its current state. */
  function CheckLink(lib: Lib, s: Store, uid: Option<string>, token: Option<string>): (r: LinkCheck)
    ensures r == MissingParts <==> !(Given(uid) && Given(token))
    ensures r == BadUid <==> Given(uid) && Given(token) && lib.decodeUid(uid.value).None?
    ensures r == UnknownUser <==>
      Given(uid) && Given(token) && lib.decodeUid(uid.value).Some? && lib.decodeUid(uid.value).value !in s.users
    ensures r.LinkOk? ==>
      && Given(uid) && Given(token) && lib.decodeUid(uid.value) == Some(r.id) && r.id in s.users
      && lib.checkToken(r.id, s.users[r.id], token.value)
    ensures r == BadToken ==>
      && Given(uid) && Given(token) && lib.decodeUid(uid.value).Some?
      && var id := lib.decodeUid(uid.value).value;
         id in s.users && !lib.checkToken(id, s.users[id], token.value)
  {
    if !(Given(uid) && Given(token)) then MissingParts
    else match lib.decodeUid(uid.value)
      case None => BadUid
      case Some(id) =>
        if id !in s.users then UnknownUser
        else if lib.checkToken(id, s.users[id], token.value) then LinkOk(id)
        else BadToken
  }

  /** Account activation (both the activate and the activation-confirm
      endpoints). Only a passing token on an inactive user changes anything,
      and then only that user's active flag; a second activation reports
      that the account is already active. */
  function Activate(lib: Lib, s: Store, uid: Option<string>, token: Option<string>): (out: (Response, Store))
    requires Valid(s)
    ensures Valid(out.1)
    ensures CheckLink(lib, s, uid, token) == MissingParts ==> out == (Response(400, Detail(MissingLinkText)), s)
    ensures CheckLink(lib, s, uid, token) == BadUid ==> out == (Response(500, ServerError(UidNotDecodable)), s)
    ensures CheckLink(lib, s, uid, token) in {UnknownUser, BadToken} ==>
      out == (Response(400, Detail(InvalidActivationText)), s)
    ensures CheckLink(lib, s, uid, token).LinkOk? ==>
      var id := CheckLink(lib, s, uid, token).id;
      if s.users[id].isActive then out == (Response(200, Detail(AlreadyActiveText)), s)
      else out == (Response(200, Detail(ActivatedText)), s.(users := s.users[id := s.users[id].(isActive := true)]))
    ensures out.1 != s ==> out.0 == Response(200, Detail(ActivatedText))
    ensures out.1.users.Keys == s.users.Keys
    ensures forall k :: k in s.users && s.users[k].isActive ==> out.1.users[k].isActive
  {
    match CheckLink(lib, s, uid, token)
    case MissingParts => (Response(400, Detail(MissingLinkText)), s)
    case BadUid => (Response(500, ServerError(UidNotDecodable)), s)
    case UnknownUser => (Response(400, Detail(InvalidActivationText)), s)
    case BadToken => (Response(400, Detail(InvalidActivationText)), s)
    case LinkOk(id) =>
      var u := s.users[id];
      if u.isActive then (Response(200, Detail(AlreadyActiveText)), s)
      else
        OwnEmailAdmissible(s, id);
        RewriteKeepsValid(s, id, u.(isActive := true));
        (Response(200, Detail(ActivatedText)), s.(users := s.users[id := u.(isActive := true)]))
  }

  // --------------------------------------------------------------- session

  /** Login at clock reading `now`. A session is established exactly when the
      credentials authenticate a stored user who is active, and that user's
      `last_login` becomes `now`. Every authentication failure
      gets the same message, whether the email is unknown or the password wrong. */
  function Login(lib: Lib, s: Store, email: Option<string>, password: Option<string>, now: nat): (out: (Response, Store))
    requires Valid(s)
    ensures Valid(out.1)
    ensures var who := lib.authenticate(s.users, email, password);
      out.0.status == 200 <==> who.Some? && who.value in s.users && s.users[who.value].isActive
    ensures out.0.status == 200 ==>
      var id := lib.authenticate(s.users, email, password).value;
      out == (Response(200, Detail(LoggedInText)),
              s.(session := Some(id), users := s.users[id := s.users[id].(lastLogin := Some(now))]))
    ensures out.0.status != 200 ==> out.1 == s && out.0.status == 400
    ensures var who := lib.authenticate(s.users, email, password);
      who.Some? && who.value in s.users && !s.users[who.value].isActive ==>
        out.0 == Response(400, Detail(NotActivatedText))
    ensures var who := lib.authenticate(s.users, email, password);
      !(who.Some? && who.value in s.users) ==> out.0 == Response(400, Detail(BadCredentialsText))
    ensures out.1.session != s.session ==> out.1.session.Some? && s.users[out.1.session.value].isActive
  {
    match lib.authenticate(s.users, email, password)
    case Some(id) =>
      if id !in s.users then (Response(400, Detail(BadCredentialsText)), s)
      else if s.users[id].isActive then
        var u := s.users[id].(lastLogin := Some(now));
        OwnEmailAdmissible(s, id);
        RewriteKeepsValid(s, id, u);
        (Response(200, Detail(LoggedInText)), s.(session := Some(id), users := s.users[id := u]))
      else (Response(400, Detail(NotActivatedText)), s)
    case None => (Response(400, Detail(BadCredentialsText)), s)
  }

  /** Logout ends the session of the logged-in user. Like every view without
      its own permission classes, it refuses an anonymous request. */
  function Logout(s: Store): (out: (Response, Store))
    requires Valid(s)
    ensures Valid(out.1)
    ensures s.session.None? ==> out == (NotAuthenticated, s)
    ensures s.session.Some? ==> out.0 == Response(200, Detail(LoggedOutText))
    ensures out.1.session.None? && out.1.(session := s.session) == s
  {
    match s.session
    case None => (NotAuthenticated, s)
    case Some(_) => (Response(200, Detail(LoggedOutText)), s.(session := None))
  }

  // ----------------------------------------------------------- own account

  /** Reading one's own account: the email and the staff flag. */
  function UserDetail(s: Store): (out: (Response, Store))
    requires Valid(s)
    ensures out.1 == s
    ensures s.session.None? ==> out.0 == NotAuthenticated
    ensures s.session.Some? ==>
      out.0 == Response(200, UserData(s.users[s.session.value].email, Some(IsStaff(s.users[s.session.value]))))
  {
    match s.session
    case None => (NotAuthenticated, s)
    case Some(id) => (Response(200, UserData(s.users[id].email, Some(IsStaff(s.users[id])))), s)
  }

  /** Partial update of one's own account: only the email can change. */
  function UserDetailUpdate(lib: Lib, s: Store, input: UserInput): (out: (Response, Store))
    requires Valid(s)
    ensures Valid(out.1)
    ensures out.0.status != 200 ==> out.1 == s
    ensures s.session.None? ==> out.0 == NotAuthenticated
    ensures s.session.Some? && !UserInputValid(lib, s.users, input, true) ==>
      out == (Response(400, Errors(UserErrors(lib, s.users, input, true))), s)
    ensures s.session.Some? && UserInputValid(lib, s.users, input, true) ==>
      var id := s.session.value;
      if EmailAdmissible(s.users, Cleaned(input.email).ValueOr(s.users[id].email), Some(id))
      then out.0.status == 200
      else out == (Response(500, ServerError(IntegrityErrorRaised)), s)
    ensures out.0.status == 200 ==>
      && s.session.Some?
      && var id := s.session.value;
         && out.1.users.Keys == s.users.Keys
         && out.1.users[id] == s.users[id].(email := Cleaned(input.email).ValueOr(s.users[id].email))
         && (forall k :: k in s.users && k != id ==> out.1.users[k] == s.users[k])
         && out.1 == s.(users := out.1.users)
         && out.0 == Response(200, UserData(out.1.users[id].email, None))
  {
    match s.session
    case None => (NotAuthenticated, s)
    case Some(id) =>
      var errs := UserErrors(lib, s.users, input, true);
      if errs != [] then (Response(400, Errors(errs)), s)
      else match UpdateFromSerializer(s, id, Cleaned(input.email))
        case None => (Response(500, ServerError(IntegrityErrorRaised)), s)
        case Some(s1) =>
          RewriteKeepsValid(s, id, s1.users[id]);
          (Response(200, UserData(s1.users[id].email, None)), s1)
  }

  /** Password change for the logged-in user: the old password must check,
      and then the stored password is the new one. The session is not
      re-keyed to the new password, so the session's auth hash no longer
      matches and the next request finds no logged-in user: the change ends
      the session. Nothing else changes. */
  function ChangePassword(lib: Lib, s: Store, oldPassword: Option<string>, newPassword: Option<string>, salt: string): (out: (Response, Store))
    requires Valid(s)
    ensures Valid(out.1)
    ensures out.0.status != 200 ==> out.1 == s
    ensures s.session.None? ==> out.0 == NotAuthenticated
    ensures s.session.Some? && !lib.checkPassword(s.users[s.session.value].pwd, oldPassword) ==>
      out == (Response(400, Detail(InvalidOldPasswordText)), s)
    ensures s.session.Some? && lib.checkPassword(s.users[s.session.value].pwd, oldPassword) ==>
      var id := s.session.value;
      && out.0 == Response(200, Detail(PasswordChangedText))
      && out.1 == s.(users := s.users[id := s.users[id].(pwd := lib.makePassword(newPassword, salt))], session := None)
  {
    match s.session
    case None => (NotAuthenticated, s)
    case Some(id) =>
      var u := s.users[id];
      if !lib.checkPassword(u.pwd, oldPassword) then (Response(400, Detail(InvalidOldPasswordText)), s)
      else
        OwnEmailAdmissible(s, id);
        RewriteKeepsValid(s, id, u.(pwd := lib.makePassword(newPassword, salt)));
        (Response(200, Detail(PasswordChangedText)),
         s.(users := s.users[id := u.(pwd := lib.makePassword(newPassword, salt))], session := None))
  }

  /** Account deletion: the user's row goes, its profile and group rows go
      with it, and the session ends. Everyone else is untouched. */
  function DeleteAccount(s: Store): (out: (Response, Store))
    requires Valid(s)
    ensures Valid(out.1)
    ensures s.session.None? ==> out == (NotAuthenticated, s)
    ensures s.session.Some? ==>
      var id := s.session.value;
      && out.0 == Response(204, Detail(AccountDeletedText))
      && out.1.users.Keys == s.users.Keys - {id}
      && out.1.profiles.Keys == s.profiles.Keys - {id}
      && (forall k :: k in out.1.users ==> out.1.users[k] == s.users[k])
      && (forall k :: k in out.1.profiles ==> out.1.profiles[k] == s.profiles[k])
      && (forall m :: m in out.1.memberships <==> m in s.memberships && m.user != id)
      && out.1.session.None?
      && out.1.outbox == s.outbox && out.1.groups == s.groups && out.1.nextId == s.nextId
  {
    match s.session
    case None => (NotAuthenticated, s)
    case Some(id) => (Response(204, Detail(AccountDeletedText)), DeleteUser(s, id).(session := None))
  }

  // ---------------------------------------------------------- password reset

  /** Request a reset link. An email no user has is refused and nothing is
      sent; otherwise exactly one mail goes to that user's address. */
  function RequestReset(lib: Lib, s: Store, email: Option<string>): (out: (Response, Store))
    requires Valid(s)
    ensures Valid(out.1)
    ensures !(email.Some? && EmailTaken(s.users, email.value)) ==>
      out == (Response(400, Detail(NoSuchEmailText)), s)
    ensures email.Some? && EmailTaken(s.users, email.value) ==>
      && out.0 == Response(200, Detail(ResetSentText))
      && out.1 == s.(outbox := out.1.outbox)
      && |out.1.outbox| == |s.outbox| + 1 && out.1.outbox[..|s.outbox|] == s.outbox
      && var mail := out.1.outbox[|s.outbox|];
         && mail.kind == ResetPasswordMail && mail.to == email.value
         && exists id :: id in s.users && s.users[id].email == email.value
              && mail.uid == lib.encodeUid(id) && mail.token == lib.makeToken(id, s.users[id])
  {
    if !(email.Some? && EmailTaken(s.users, email.value)) then (Response(400, Detail(NoSuchEmailText)), s)
    else
      var id := FindByEmail(s.users, email.value);
      var u := s.users[id];
      var mail := Mail(ResetPasswordMail, u.email, lib.encodeUid(id), lib.makeToken(id, u));
      (Response(200, Detail(ResetSentText)), s.(outbox := s.outbox + [mail]))
  }

  /** Confirm a reset. Only a link that checks together with a non-empty new
      password changes anything, and then only that user's password; if that
      user is the one logged in, its session ends, as after a password change. */
  function ConfirmReset(lib: Lib, s: Store, uid: Option<string>, token: Option<string>, newPassword: Option<string>, salt: string): (out: (Response, Store))
    requires Valid(s)
    ensures Valid(out.1)
    ensures out.0.status != 200 ==> out.1 == s
    ensures CheckLink(lib, s, uid, token) == MissingParts ==> out.0 == Response(400, Detail(MissingLinkText))
    ensures CheckLink(lib, s, uid, token) == BadUid ==> out.0 == Response(500, ServerError(UidNotDecodable))
    ensures CheckLink(lib, s, uid, token) in {UnknownUser, BadToken} ==> out.0 == Response(400, Detail(InvalidResetText))
    ensures CheckLink(lib, s, uid, token).LinkOk? && !Given(newPassword) ==>
      out.0 == Response(400, Detail(NewPasswordRequiredText))
    ensures CheckLink(lib, s, uid, token).LinkOk? && Given(newPassword) ==>
      var id := CheckLink(lib, s, uid, token).id;
      && out.0 == Response(200, Detail(PasswordResetText))
      && out.1 == s.(users := s.users[id := s.users[id].(pwd := lib.makePassword(newPassword, salt))],
                     session := if s.session == Some(id) then None else s.session)
  {
    match CheckLink(lib, s, uid, token)
    case MissingParts => (Response(400, Detail(MissingLinkText)), s)
    case BadUid => (Response(500, ServerError(UidNotDecodable)), s)
    case UnknownUser => (Response(400, Detail(InvalidResetText)), s)
    case BadToken => (Response(400, Detail(InvalidResetText)), s)
    case LinkOk(id) =>
      if !Given(newPassword) then (Response(400, Detail(NewPasswordRequiredText)), s)
      else
        var u := s.users[id].(pwd := lib.makePassword(newPassword, salt));
        OwnEmailAdmissible(s, id);
        RewriteKeepsValid(s, id, u);
        (Response(200, Detail(PasswordResetText)),
         s.(users := s.users[id := u], session := if s.session == Some(id) then None else s.session))
  }

  // ---------------------------------------------------------------- profile

  /** Reading one's own profile. */
  function ProfileGet(s: Store): (out: (Response, Store))
    requires Valid(s)
    ensures out.1 == s
    ensures s.session.None? ==> out.0 == NotAuthenticated
    ensures s.session.Some? && s.session.value !in s.profiles ==> out.0 == Response(404, Detail(NoProfileText))
    ensures s.session.Some? && s.session.value in s.profiles ==>
      out.0 == Response(200, ProfileData(s.profiles[s.session.value]))
  {
    match s.session
    case None => (NotAuthenticated, s)
    case Some(id) =>
      if id in s.profiles then (Response(200, ProfileData(s.profiles[id])), s)
      else (Response(404, Detail(NoProfileText)), s)
  }

  /** The part of profile creation after validation: `serializer.save()`
      for the requesting user, refused by the one-to-one key when that user
      already has a profile. */
  function SaveProfile(s: Store, id: UserId, c: ProfileChanges): (out: (Response, Store))
    requires Valid(s) && id in s.users && ChangesValid(c)
    ensures Valid(out.1)
    ensures id in s.profiles ==> out == (Response(500, ServerError(IntegrityErrorRaised)), s)
    ensures id !in s.profiles ==>
      out == (Response(201, ProfileData(NewProfile(c))), s.(profiles := s.profiles[id := NewProfile(c)]))
  {
    match CreateProfile(s, id, c)
    case None => (Response(500, ServerError(IntegrityErrorRaised)), s)
    case Some(s1) => (Response(201, ProfileData(NewProfile(c))), s1)
  }

  /** Creating one's own profile. Since every user gets a profile when
      created, this succeeds only after that profile was deleted. */
  function ProfileCreate(s: Store, input: ProfileInput): (out: (Response, Store))
    requires Valid(s)
    ensures Valid(out.1)
    ensures out.0.status != 201 ==> out.1 == s
    ensures s.session.None? ==> out.0 == NotAuthenticated
    ensures s.session.Some? && !ProfileInputValid(input) ==> out.0 == Response(400, Errors(ProfileErrors(input)))
    ensures s.session.Some? && ProfileInputValid(input) ==>
      out == SaveProfile(s, s.session.value, Validated(input))
      && (out.0.status == 201 <==> s.session.value !in s.profiles)
  {
    match s.session
    case None => (NotAuthenticated, s)
    case Some(id) =>
      var errs := ProfileErrors(input);
      if errs != [] then (Response(400, Errors(errs)), s)
      else SaveProfile(s, id, Validated(input))
  }

  /** Full update of one's own profile. */
  function ProfileUpdate(s: Store, input: ProfileInput): (out: (Response, Store))
    requires Valid(s)
    ensures Valid(out.1)
    ensures out.0.status != 200 ==> out.1 == s
    ensures s.session.None? ==> out.0 == NotAuthenticated
    ensures s.session.Some? && s.session.value !in s.profiles ==> out.0 == Response(404, Detail(NoProfileText))
    ensures s.session.Some? && s.session.value in s.profiles && !ProfileInputValid(input) ==>
      out.0 == Response(400, Errors(ProfileErrors(input)))
    ensures s.session.Some? && s.session.value in s.profiles && ProfileInputValid(input) ==>
      out.0.status == 200
    ensures out.0.status == 200 ==>
      && s.session.Some? && s.session.value in s.profiles && ProfileInputValid(input)
      && var id := s.session.value;
         && out.1 == s.(profiles := s.profiles[id := UpdateProfile(s.profiles[id], Validated(input))])
         && out.0 == Response(200, ProfileData(out.1.profiles[id]))
  {
    match s.session
    case None => (NotAuthenticated, s)
    case Some(id) =>
      if id !in s.profiles then (Response(404, Detail(NoProfileText)), s)
      else
        var errs := ProfileErrors(input);
        if errs != [] then (Response(400, Errors(errs)), s)
        else
          var p := UpdateProfile(s.profiles[id], Validated(input));
          UpdateProfileWellFormed(s.profiles[id], Validated(input));
          (Response(200, ProfileData(p)), s.(profiles := s.profiles[id := p]))
  }

  /** Deleting one's own profile; the account stays. */
  function ProfileDelete(s: Store): (out: (Response, Store))
    requires Valid(s)
    ensures Valid(out.1)
    ensures out.0.status != 204 ==> out.1 == s
    ensures s.session.None? ==> out.0 == NotAuthenticated
    ensures s.session.Some? && s.session.value !in s.profiles ==> out.0 == Response(404, Detail(NoProfileText))
    ensures s.session.Some? && s.session.value in s.profiles ==>
      && out.0 == Response(204, Detail(ProfileDeletedText))
      && out.1 == s.(profiles := s.profiles - {s.session.value})
  {
    match s.session
    case None => (NotAuthenticated, s)
    case Some(id) =>
      if id in s.profiles then (Response(204, Detail(ProfileDeletedText)), s.(profiles := s.profiles - {id}))
      else (Response(404, Detail(NoProfileText)), s)
  }
}

=== FILE: wrappers.dfy ===
/** A value that may be missing: an absent request field or a NULL column. */
module Wrappers {

  datatype Option<T> = None | Some(value: T) {

    /** The held value, or `fallback` when there is none; what
        `validated_data.get(key, fallback)` returns. */
    function ValueOr(fallback: T): T {
      if Some? then value else fallback
    }
  }
}
